=== FILE: README.md ===
# AirPlay client: digest authentication and image fitting

A Dafny model of the protocol logic of the Python `AirPlay` client
(`Python/airplay.py`). The client drives an Apple TV over HTTP: it sends
`PUT /photo` and `POST /stop`, answers HTTP digest challenges, and scales
images to the receiver's screen. The model covers four parts:

- **Challenge parser** (`_get_auth_params`), in `digest.dfy`, module
  `DigestAuth`. It rests on exact models of the Python string operations it
  uses (`find`, `split`, `replace`, `strip`, `str(int)`), in `pystrings.dfy`,
  module `PyStrings`.
- **Authorization builder** (`_make_authorization`), also in `DigestAuth`.
  MD5 is an uninterpreted function `H: string -> string` passed as a
  parameter.
- **Request/authentication state machine** (`__init__`, `set_password`,
  `set_auth`, `_set_password`, `_do_http`, `stop`, `_photo_raw`), in
  `client.dfy`, module `AirPlay`.
  - The connection is replaced by a script: the list of responses the
    receiver gives, in order.
  - The password provider is a function parameter.
  - A call is a bounded recursive function that sends at most two requests.
  - The console provider's prompt label (`AuthConsole.get_password`) is
    modelled too.
- **Image fitting** (`set_screen_size`, `_scale_image`, the 1280x720
  default), in `geometry.dfy`, module `Geometry`.
  - Aspects are exact fractions compared by cross-multiplication.
  - `int()` truncation is integer division.

`results.dfy` (module `Results`) holds the `Option` and `Result` types: a
Python value that may be `None`, and a call that returns or raises.

## Behaviour worth knowing

The model follows the code, including where the code does less than its
own docstrings suggest:

- **Challenge without a space.** Such a challenge is not rejected:
  `find(' ')` yields -1, and the whole string, scheme token included, is
  parsed as the attribute list (`DigestAuth.AttributeText`).
- **Provider returns `None`.** The `_set_password` docstring says it raises
  `IOError` "If authentication is required but no password is available".
  That is raised only when there is neither a stored password nor a
  provider. A provider answering `None` has `None` stored as the password,
  and `_do_http` then returns `None` without a retry
  (`AirPlay.ProviderNoneStopsCall`), although its docstring promises the
  response body as a string.
- **Stop when the request fails.** `stop` clears the stored challenge only
  when `POST /stop` returns normally: after a plain answer, after an answer
  to the retry, or when the provider declines. A refused retry raises, the
  exception is swallowed, and the challenge just received stays
  (`AirPlay.StopKeepsChallengeOnError`).
- **Fitting on a stale screen.** The scaled image stays within the screen
  only while the stored aspect matches the stored size
  (`Geometry.Consistent`). `set_screen_size(w, 0)` stores the new size,
  then raises on the division and keeps the old aspect.
- **Very thin images.** The truncated short side of a very wide or very
  tall image can be 0 (3000x1 on the default screen gives 1280x0), and
  `resize` then refuses the target (`Geometry.ZeroSideExactlyWhen`).
- **`User-Agent`.** It is added only when the header map is already
  non-empty. So `stop()` without a stored challenge passes an empty header
  map to the connection.

## Model

| member | source | states |
|---|---|---|
| PyStrings.FindChar | Python/airplay.py:141 | `find` of one character is -1 exactly when the character is absent, and otherwise the index of its first occurrence |
| PyStrings.Split | Python/airplay.py:145 | `split(', ')` yields at least one piece, the pieces joined by the separator give back the input, and no piece contains the separator |
| PyStrings.SplitJoin | Python/airplay.py:145 | splitting undoes joining for pieces free of a separator that cannot overlap itself, such as `", "` |
| PyStrings.ReplaceCrlf | Python/airplay.py:143 | `replace('\r\n', ' ')` leaves no CRLF, never lengthens the text, and changes nothing in a text without CRLF |
| PyStrings.ReplaceCrlfIsSplitJoin | Python/airplay.py:143 | `replace` is `" ".join` of `split('\r\n')`: the text between CRLFs is kept as it is and each CRLF becomes one space |
| PyStrings.StripLeftRemovesRun | Python/airplay.py:148 | the left strip removes exactly the leading run of the character |
| PyStrings.StripRightRemovesRun | Python/airplay.py:148 | the right strip removes exactly the trailing run of the character |
| PyStrings.StripKeepsMiddle | Python/airplay.py:148 | `strip('"')` keeps a middle part, everything around which is `"`, that neither starts nor ends with `"` |
| PyStrings.StripSurrounded | Python/airplay.py:148 | stripping the quotes around a value that itself neither starts nor ends with `"` gives the value back |
| PyStrings.DecimalString | Python/airplay.py:202 | `str(n)` is a non-empty string of decimal digits, starting with `0` only for zero |
| PyStrings.DecimalRoundTrip | Python/airplay.py:202 | the `Content-Length` text denotes the length it was made from |
| DigestAuth.ChallengeAttributes | Python/airplay.py:130-151 | `_get_auth_params` returns parameters keyed by exactly the names of the `", "`-separated items that hold `=`, each with the unquoted value of the last such item |
| DigestAuth.AttributeText | Python/airplay.py:141-143 | the parser reads a text without CRLF; for a challenge without a space it reads the whole challenge, scheme included |
| DigestAuth.SchemeDiscarded | Python/airplay.py:141-145 | the token before the first space takes no part in the result: the parse is that of the rest, with CRLF replaced |
| DigestAuth.ParseItemsKeys | Python/airplay.py:145-149 | the parsed keys are exactly the names of the items holding `=`: other items are dropped and no key is invented |
| DigestAuth.ParseItemsLastWins | Python/airplay.py:145-149 | each key maps to the value of its last attribute: a later duplicate overrides an earlier one |
| DigestAuth.FieldReadsBack | Python/airplay.py:146-149 | a `name="value"` field is read back as that name and value when the name has no `=` and the value has no quote |
| DigestAuth.QuotedSeparatorTruncates | Python/airplay.py:145-149 | a `", "` inside a quoted value cuts the value there, and the rest of it is dropped: the parser is not the RFC 2617 grammar |
| DigestAuth.ParseSkippingMiddle | Python/airplay.py:145-149 | an item without `=` between two attributes leaves no trace in the result |
| DigestAuth.RequestDigest | Python/airplay.py:115-119 | the response is KD(H(A1), nonce ":" H(A2)) of section 3.2.2.1 of RFC 2617 without `qop`, with A1 = `Airplay:realm:password` and A2 = `method:uri` |
| DigestAuth.AuthorizationLayout | Python/airplay.py:102-128 | `_make_authorization` returns `Digest ` followed by the fields username `Airplay`, realm, nonce, uri and response, in that order, each quoted and separated by `", "`; realm and nonce are the challenge's (the text `None` when absent) and the response is the request digest over them, the password and the request |
| DigestAuth.AuthorizationHidesPassword | Python/airplay.py:115-128 | two passwords with the same H(A1) give the same header: the password itself is never sent |
| DigestAuth.AuthorizationRoundTrip | Python/airplay.py:102-128 | parsing the header gives back username `Airplay`, the realm and nonce (the text `None` when missing), the uri and the response digest, for plain values and a hex digest |
| Geometry.DefaultScreenConsistent | Python/airplay.py:34-36 | the default screen is 1280x720 and its aspect is 1280/720 |
| Geometry.SetScreenSize | Python/airplay.py:60-70 | the size is always stored; the division raises exactly when the height is zero, and then the old aspect stays; otherwise the aspect is that of the new size |
| Geometry.ZeroHeightLeavesStaleAspect | Python/airplay.py:68-70 | after `set_screen_size(1920, 0)` the stored aspect is still 1280/720 and no longer matches the size |
| Geometry.ScaleImage | Python/airplay.py:241-253 | the size `_scale_image` hands to `resize`: an image that fits is unchanged; a zero height that does not fit raises; otherwise a wider image takes the screen width and a taller one the screen height |
| Geometry.FitImage | Python/airplay.py:241-255 | `_scale_image` as a whole: a fitting image is returned unchanged; otherwise it raises on a zero height, raises when `resize` gets a zero side, and else yields the target, both sides positive |
| Geometry.ZeroSideExactlyWhen | Python/airplay.py:246-255 | on a consistent screen `resize` is refused exactly when the shorter scaled side truncates to zero: `h * W < w` for a wide image, `w * H < h` for a tall one |
| Geometry.ThinImagesRefused | Python/airplay.py:246-255 | 3000x1 on the default screen is resized to 1280x0, which is refused, and so is 1x3000 |
| Geometry.ScaleKeepsAspect | Python/airplay.py:246-253 | the side that follows is the truncation of the exact aspect-preserving value |
| Geometry.ScaleIsLargestFit | Python/airplay.py:241-255 | on a consistent screen, a non-fitting image is scaled on both axes by the smaller of W/w and H/h, each side truncated |
| Geometry.ScaledFits | Python/airplay.py:241-255 | on a consistent screen the result never exceeds the screen on either axis, and a non-fitting image shrinks on both axes |
| Geometry.FitFactor | Python/airplay.py:248-253 | the factor chosen fits the image on both axes and is tight on one of them |
| Geometry.ScaleExamples | Python/airplay.py:241-255 | 100x100 is kept, 2560x1440 becomes 1280x720, 720x1440 becomes 360x720, and 1300x0 raises |
| AirPlay.NewClient | Python/airplay.py:39-58 | the name defaults to the hostname when it is `None` or empty; there is no password, provider, challenge or authorization yet; the screen is the consistent 1280x720 default |
| AirPlay.SetPassword | Python/airplay.py:72-79 | the password is stored and nothing else changes |
| AirPlay.SetAuth | Python/airplay.py:81-88 | a provider is installed, or removed with `None`, and nothing else changes |
| AirPlay.SetAuthDecidesPasswordSource | Python/airplay.py:88 | without a stored password, a refused request with a provider installed keeps the provider's answer as the password, and with it removed raises "Authentication required" |
| AirPlay.ProviderAnswerKept | Python/airplay.py:165-167 | a refused first attempt without a stored password keeps the provider's answer, even `None`, as the password |
| AirPlay.SetClientScreenSize | Python/airplay.py:60-70 | the client's screen is updated as `set_screen_size` updates it: the new size, a raise exactly on a zero height with the old aspect kept; nothing else about the client changes |
| AirPlay.ObtainPassword | Python/airplay.py:153-169 | a stored password is returned as it is; otherwise the provider's answer is stored and returned, even `None`; with neither, "Authentication required" is raised |
| AirPlay.MakeAuthorization | Python/airplay.py:102-128 | the header value for the client's password is returned and kept as its last authorization |
| AirPlay.RequestHeaders | Python/airplay.py:189-202 | `Authorization` is present exactly with stored parameters, and then it is the digest header; `User-Agent` is present exactly when the map was non-empty by then, and a caller's value is never overridden; `Content-Length` is present exactly with a body, or from the caller, and with a body it denotes the body's length; other caller headers pass unchanged and no other header is added |
| AirPlay.PrepareHeaders | Python/airplay.py:194-202 | the headers are those of `RequestHeaders`, and with stored parameters the `Authorization` sent is kept on the client |
| AirPlay.DoHttp | Python/airplay.py:171-220 | one or two requests; two only on a first-attempt 401; a non-401 returns that response's body; a 401 on the retry raises "Incorrect password"; no answer is a connection error; when a retry is sent, its answer decides the result; the retry re-prepares the first request's headers; the receiver is unchanged and a stored password is kept; without a first-attempt 401 the password and the challenge parameters are untouched; the stored authorization is the `Authorization` of the last request sent whenever that request had parameters, and is otherwise unchanged |
| AirPlay.PreparedTwice | Python/airplay.py:212 | preparing the already prepared headers again keeps every promise made about the caller's headers |
| AirPlay.SentRequestsPrepared | Python/airplay.py:189-212 | every request of a call carries the verb, path, body and headers prepared from the caller's, the retry included |
| AirPlay.RetryExactlyWhen | Python/airplay.py:207-214 | a second request is sent exactly on a first-attempt 401 that carries a challenge, when a stored or provided password is at hand |
| AirPlay.RetryUsesFreshChallenge | Python/airplay.py:207-212 | a first-attempt 401 with a challenge, when a password is at hand, leads to exactly one retry; the stored parameters become the refusal's parsed challenge, and the retry's `Authorization` is computed from them and kept on the client |
| AirPlay.ProviderNoneStopsCall | Python/airplay.py:210-214 | a provider answering `None` makes the call return `None` after one request, with `None` stored as the password |
| AirPlay.NoPasswordSourceRaises | Python/airplay.py:163-169 | a 401 with neither a stored password nor a provider raises "Authentication required" after one request |
| AirPlay.MissingChallengeRaises | Python/airplay.py:163-211 | a 401 without `WWW-Authenticate` fails in the parser after one request once a password is at hand, whether it was stored or just came from the provider |
| AirPlay.SecondRefusalRaises | Python/airplay.py:207-216 | a retry refused again raises "Incorrect password" after two requests, with the new challenge kept, whether the password was stored or came from the provider |
| AirPlay.StoredPasswordIgnoresProvider | Python/airplay.py:163-164 | with a stored password the call does not depend on the provider |
| AirPlay.SessionReuse | Python/airplay.py:194-196 | with a stored challenge the first request already carries its `Authorization` |
| AirPlay.Stop | Python/airplay.py:222-229 | `POST /stop` without a body, sending what `_do_http` sends; when that call returns normally the challenge is dropped and the rest of the client is as the call left it; when it raises, the client is exactly as the call left it |
| AirPlay.StopClearsExactlyOnReturn | Python/airplay.py:224-229 | after `stop` no challenge is stored exactly when `POST /stop` returned normally or the call left none |
| AirPlay.StopAfterAcceptedRetry | Python/airplay.py:207-229 | a refused `POST /stop` answered on its retry drops the challenge, after two requests |
| AirPlay.StopWhenProviderDeclines | Python/airplay.py:210-229 | a provider declining to give a password ends `POST /stop` normally, so the challenge is dropped after one request |
| AirPlay.StopWithoutChallengePassesNoHeaders | Python/airplay.py:189-199 | without a stored challenge `POST /stop` passes an empty header map to the connection |
| AirPlay.StopKeepsChallengeOnError | Python/airplay.py:224-229 | when the retry of `POST /stop` is refused, the exception is swallowed and the challenge just received stays, whether the password was stored or came from the provider |
| AirPlay.TransitionNamesDistinct | Python/airplay.py:26-29 | the four transitions have four different header values |
| AirPlay.PhotoRaw | Python/airplay.py:299-314 | `PUT /photo` with the JPEG data as body, at most one retry |
| AirPlay.PhotoHeaders | Python/airplay.py:299-314 | every photo request carries the transition, `User-Agent: MediaControl/1.0` and the JPEG length |
| AirPlay.ConsoleLabel | Python/airplay.py:420 | the label is the bare hostname exactly when the hostname is the name; otherwise it is the name, then ` (`, then the hostname and `)` |
| AirPlay.PromptShowsReceiver | Python/airplay.py:420-421 | the password prompt shows both the name and the hostname |
| AirPlay.ConsoleNeverDeclines | Python/airplay.py:409-421 | with the console provider, a call never returns `None`, and a first-attempt 401 with a challenge is always retried |

## Left out

- The HTTP connection (`http.client`: connect, send, read, `close`) is a list of scripted responses. A failed connection is the `ConnectionFailed` error. The body's UTF-8 decoding is not modelled: bodies are strings.
- MD5 (`_md5_digest`) is the uninterpreted parameter `H`. Only the composition of the digests is modelled.
- The background threads (`photo`, `desktop`, `_photo_keep_alive`, `_desktop_thread`, `stop_photo_thread`) are left out, because their point is concurrency and timing. `stop` leaves out its first step, which only drops the thread reference.
- PIL (`Image.open`, `resize`, JPEG encoding, `ImageGrab`) is left out. `_scale_image` is modelled up to the size it hands to `resize`; of `resize` only its refusal of a zero side (Pillow raises `ValueError`, "height and width must be > 0") is modelled, in `Geometry.FitImage`. `_photo_raw` takes the JPEG bytes.
- `http.client` adds headers of its own to every request (`Host`, `Accept-Encoding: identity`, and `Content-Length: 0` for a `POST` without a body). The model is about the header map `_do_http` passes to the connection.
- Zeroconf discovery (`search`, `ServiceBrowser`, `ServiceListener`), the `Service` record and `main` are left out, because they are network discovery and command-line glue.
- `AuthConsole.get_password` calls `input()`; here the console is a function parameter. End of input (`EOFError`) is not modelled.
- `Geometry.ScaleImage`, `Geometry.FitImage` and `Geometry.SetScreenSize` use exact fractions instead of floats. The truncated side can be one pixel smaller in Python whenever the exact value is a whole number or within float rounding of one: 700x1000 gives 503x720 in Python, because `720 * 0.7` is just below 504 in doubles, and 504x720 here. Near-equal aspects may also take the other branch. Sizes are `nat`, so negative sizes are not modelled.
- `AirPlay.PhotoRaw` takes one of the four `Transition` values of lines 26-29, as the docstring asks. `_photo_raw` itself puts any string it is given into the header, and such other strings are not modelled.
- `AirPlay.DoHttp` does not model the Python mutation of the caller's header dictionary, which stays visible to the caller after the call. It does model that the retry reuses the mutated headers. Header order on the wire is not modelled.
- `AirPlay.DoHttp`: exceptions other than the ones named in `CallError` (a provider that raises, a decoding error) are not modelled.
- `DigestAuth.AuthorizationRoundTrip` is stated only for realm, nonce and uri values without `"`, `,` or CR. For other values the parser does not read the header back (see `DigestAuth.QuotedSeparatorTruncates`).

=== FILE: client.dfy ===
/** The AirPlay client's session state and its one request path:
    `__init__`, `set_password`, `set_auth`, `_set_password`, the header
    preparation and 401 handling of `_do_http`, `stop`, `_photo_raw`, and
    the prompt of the console password provider.

    The HTTP connection is replaced by a script: the responses the receiver
    gives, in order. The digest function and the password provider are
    parameters, since the client only calls them. */
module AirPlay {
  import opened Results
  import opened PyStrings
  import opened DigestAuth
  import opened Geometry

  newtype byte = x: int | 0 <= x < 256

  /** HTTP header names to values. */
  type Headers = map<string, string>

  /** `Auth.get_password(hostname, name)`: a password, or `None`. */
  type Provider = (string, string) -> Option<string>

  const UserAgent := "MediaControl/1.0"

  const AuthorizationHeader := "Authorization"
  const UserAgentHeader := "User-Agent"
  const ContentLengthHeader := "Content-Length"
  const TransitionHeader := "X-Apple-Transition"

  /** The headers `_do_http` itself sets. */
  predicate Managed(key: string) {
    key == AuthorizationHeader || key == UserAgentHeader || key == ContentLengthHeader
  }

  // ---------------------------------------------------------------------------
  // Session state
  // ---------------------------------------------------------------------------

  /** A client: the receiver's address and name, the password once known,
      whether a password provider is installed, the parameters of the last
      digest challenge, the last `Authorization` value, and the screen. */
  datatype Client = Client(
    hostname: string,
    port: int,
    name: string,
    password: Option<string>,
    hasAuth: bool,
    params: Option<Params>,
    authorization: Option<string>,
    screen: Screen)

  /** Python's truthiness of an optional string. */
  predicate Truthy(s: Option<string>) {
    s.Some? && |s.value| > 0
  }

  /** `AirPlay(hostname, port, name)`: the name defaults to the hostname
      when it is `None` or empty; no password, provider or challenge yet;
      the screen is the 1280x720 default. */
  function NewClient(hostname: string, port: int, name: Option<string>): (c: Client)
    ensures c.hostname == hostname && c.port == port
    ensures Truthy(name) ==> c.name == name.value
    ensures !Truthy(name) ==> c.name == hostname
    ensures c.password.None? && !c.hasAuth && c.params.None? && c.authorization.None?
    ensures Consistent(c.screen) && c.screen.width == 1280 && c.screen.height == 720
  {
    DefaultScreenConsistent();
    Client(hostname, port, if Truthy(name) then name.value else hostname, None, false, None, None, DefaultScreen)
  }

  /** The identity of the receiver and its screen, which no request
      changes. */
  predicate SameReceiver(a: Client, b: Client) {
    a.hostname == b.hostname && a.port == b.port && a.name == b.name && a.hasAuth == b.hasAuth && a.screen == b.screen
  }

  /** `set_password(password)`. */
  function SetPassword(c: Client, password: string): (d: Client)
    ensures d.password == Some(password)
    ensures SameReceiver(c, d) && d.params == c.params && d.authorization == c.authorization
  {
    c.(password := Some(password))
  }

  /** `set_auth(auth)`: a provider is installed, or removed by passing
      `None`; nothing else changes. */
  function SetAuth(c: Client, installed: bool): (d: Client)
    ensures d.hasAuth == installed
    ensures d.(hasAuth := c.hasAuth) == c
  {
    c.(hasAuth := installed)
  }

  /** `set_screen_size(width, height)` on a client. */
  function SetClientScreenSize(c: Client, width: nat, height: nat): (u: (Client, Option<ArithError>))
    ensures u.0.screen.width == width && u.0.screen.height == height
    ensures u.1.Some? <==> height == 0
    ensures height > 0 ==> Consistent(u.0.screen)
    ensures u.0.(screen := c.screen) == c
    ensures u.0.screen == SetScreenSize(c.screen, width, height).screen
    ensures height == 0 ==> u.0.screen.aspectNum == c.screen.aspectNum && u.0.screen.aspectDen == c.screen.aspectDen
  {
    var s := SetScreenSize(c.screen, width, height);
    (c.(screen := s.screen), s.raised)
  }

  // ---------------------------------------------------------------------------
  // Password acquisition
  // ---------------------------------------------------------------------------

  /** Why a call raised. */
  datatype CallError =
    | AuthenticationRequired   // no password and no provider
    | IncorrectPassword        // 401 on the retry
    | NoChallengeHeader        // 401 without WWW-Authenticate: parsing None fails
    | ConnectionFailed         // the receiver did not answer

  /** `_set_password`: the stored password if there is one; otherwise the
      provider's answer, stored even when it is `None`; with neither it
      raises. */
  function ObtainPassword(c: Client, provider: Provider): (r: (Client, Result<Option<string>, CallError>))
    ensures c.password.Some? ==> r == (c, Ok(c.password))
    ensures c.password.None? && c.hasAuth ==>
      r.1 == Ok(provider(c.hostname, c.name)) && r.0.password == provider(c.hostname, c.name)
    ensures c.password.None? && !c.hasAuth ==> r == (c, Err(AuthenticationRequired))
    ensures r.1.Ok? ==> r.0.password == r.1.value
    ensures SameReceiver(c, r.0) && r.0.params == c.params && r.0.authorization == c.authorization
  {
    if c.password.Some? then (c, Ok(c.password))
    else if c.hasAuth then
      var p := provider(c.hostname, c.name);
      (c.(password := p), Ok(p))
    else (c, Err(AuthenticationRequired))
  }

  // ---------------------------------------------------------------------------
  // Request preparation
  // ---------------------------------------------------------------------------

  /** `_make_authorization` on a client: the header value, also kept as the
      client's last authorization. */
  function MakeAuthorization(c: Client, H: Hash, params: Params, verb: string, uri: string): (r: (Client, string))
    ensures r.0.authorization == Some(r.1)
    ensures r.1 == Authorization(H, params, c.password, verb, uri)
    ensures SameReceiver(c, r.0) && r.0.password == c.password && r.0.params == c.params
  {
    var a := Authorization(H, params, c.password, verb, uri);
    (c.(authorization := Some(a)), a)
  }

  /** What `_do_http` promises about the headers it sends for the caller's
      `given` headers and body: caller headers other than the three it
      manages are passed on unchanged; a caller's `User-Agent` is never
      overridden and one is present whenever the caller gave any header;
      `Content-Length` is present with `str` of the body's length when
      there is a body. */
  ghost predicate Prepared(given: Headers, sent: Headers, data: Option<seq<byte>>) {
    && (forall k :: k in given && !Managed(k) ==> k in sent && sent[k] == given[k])
    && (UserAgentHeader in given ==> UserAgentHeader in sent && sent[UserAgentHeader] == given[UserAgentHeader])
    && (|given| > 0 ==> UserAgentHeader in sent)
    && (UserAgentHeader in sent && UserAgentHeader !in given ==> sent[UserAgentHeader] == UserAgent)
    && (data.Some? ==> ContentLengthHeader in sent && sent[ContentLengthHeader] == DecimalString(|data.value|))
  }

  /** The headers `_do_http` sends, given the stored challenge parameters
      and password and the caller's headers: with parameters the
      `Authorization` value is set; then, if the map is not empty,
      `User-Agent` is set unless present; then `Content-Length` is set to
      `str(len(data))` when there is a body. */
  function RequestHeaders(params: Option<Params>, password: Option<string>, H: Hash, verb: string, uri: string,
                          data: Option<seq<byte>>, headers: Headers): (r: Headers)
    ensures params.Some? ==> AuthorizationHeader in r && r[AuthorizationHeader] == Authorization(H, params.value, password, verb, uri)
    ensures AuthorizationHeader in r <==> params.Some? || AuthorizationHeader in headers
    ensures params.None? && AuthorizationHeader in headers ==> r[AuthorizationHeader] == headers[AuthorizationHeader]
    ensures UserAgentHeader in r <==> params.Some? || |headers| > 0
    ensures ContentLengthHeader in r <==> data.Some? || ContentLengthHeader in headers
    ensures data.None? && ContentLengthHeader in headers ==> r[ContentLengthHeader] == headers[ContentLengthHeader]
    ensures Prepared(headers, r, data)
    ensures forall k :: k in r ==> k in headers || Managed(k)
  {
    var h1 := if params.Some? then headers[AuthorizationHeader := Authorization(H, params.value, password, verb, uri)] else headers;
    var h2 := if |h1| > 0 && UserAgentHeader !in h1 then h1[UserAgentHeader := UserAgent] else h1;
    if data.Some? then h2[ContentLengthHeader := DecimalString(|data.value|)]
    else h2
  }

  /** The header preparation of `_do_http` on a client: the `Authorization`
      value it sends is also kept as the client's last authorization. */
  function PrepareHeaders(c: Client, H: Hash, verb: string, uri: string, data: Option<seq<byte>>, headers: Headers): (r: (Client, Headers))
    ensures r.1 == RequestHeaders(c.params, c.password, H, verb, uri, data, headers)
    ensures c.params.Some? ==> r.0.authorization == Some(r.1[AuthorizationHeader])
    ensures c.params.None? ==> r.0 == c
    ensures SameReceiver(c, r.0) && r.0.password == c.password && r.0.params == c.params
  {
    if c.params.Some? then
      var (c1, a) := MakeAuthorization(c, H, c.params.value, verb, uri);
      (c1, RequestHeaders(c.params, c.password, H, verb, uri, data, headers))
    else (c, RequestHeaders(c.params, c.password, H, verb, uri, data, headers))
  }

  // ---------------------------------------------------------------------------
  // One logical request
  // ---------------------------------------------------------------------------

  /** A request as sent: verb, path, body and headers. */
  datatype Request = Request(verb: string, uri: string, body: Option<seq<byte>>, headers: Headers)

  /** A response from the receiver: its status, its `WWW-Authenticate`
      header if any, and its body. */
  datatype Response = Response(status: int, challenge: Option<string>, body: string)

  /** The outcome of `_do_http`: the client afterwards, the value returned
      (a body, or `None`) or the error raised, and the requests sent. */
  datatype Call = Call(client: Client, result: Result<Option<string>, CallError>, sent: seq<Request>)

  const Unauthorized := 401

  /** `_do_http(verb, uri, data, headers, repeat)` against the receiver
      whose responses are `script`. A 401 on a first attempt obtains a
      password; when there is one, the challenge replaces the stored
      parameters and the request is sent once more with the headers as
      prepared and no further retry; when the provider answered `None` the
      call returns `None`. A 401 on the retry raises. Any other status
      returns the body. */
  function DoHttp(c: Client, H: Hash, provider: Provider, verb: string, uri: string, data: Option<seq<byte>>,
                  headers: Option<Headers>, repeat: bool, script: seq<Response>): (r: Call)
    ensures 1 <= |r.sent| <= 2
    ensures |r.sent| == 2 ==> repeat && |script| >= 1 && script[0].status == Unauthorized
    ensures |script| == 0 ==> r.result == Err(ConnectionFailed) && |r.sent| == 1
    ensures |script| > 0 && script[0].status != Unauthorized ==> r.result == Ok(Some(script[0].body)) && |r.sent| == 1
    ensures !repeat && |script| > 0 && script[0].status == Unauthorized ==> r.result == Err(IncorrectPassword)
    ensures r.result.Ok? && r.result.value.Some? ==>
      |r.sent| <= |script| && script[|r.sent| - 1].status != Unauthorized && r.result.value.value == script[|r.sent| - 1].body
    ensures |r.sent| == 2 ==>
      r.result == (if |script| < 2 then Err(ConnectionFailed)
                   else if script[1].status == Unauthorized then Err(IncorrectPassword)
                   else Ok(Some(script[1].body)))
    ensures r.sent[0] == Request(verb, uri, data, RequestHeaders(c.params, c.password, H, verb, uri, data, headers.GetOr(map[])))
    ensures |r.sent| == 2 ==>
      r.sent[1] == Request(verb, uri, data, RequestHeaders(r.client.params, r.client.password, H, verb, uri, data, r.sent[0].headers))
    ensures SameReceiver(c, r.client)
    ensures c.password.Some? ==> r.client.password == c.password
    ensures !(repeat && |script| >= 1 && script[0].status == Unauthorized) ==>
      r.client.password == c.password && r.client.params == c.params
    ensures (c.params.Some? || |r.sent| == 2) ==>
      AuthorizationHeader in r.sent[|r.sent| - 1].headers
      && r.client.authorization == Some(r.sent[|r.sent| - 1].headers[AuthorizationHeader])
    ensures c.params.None? && |r.sent| == 1 ==> r.client.authorization == c.authorization
    ensures r.client.params != c.params ==>
      && |script| >= 1 && script[0].challenge.Some? && r.client.password.Some?
      && r.client.params == Some(ParseChallenge(script[0].challenge.value))
    decreases if repeat then 1 else 0
  {
    var given := headers.GetOr(map[]);
    var (c1, prepared) := PrepareHeaders(c, H, verb, uri, data, given);
    var request := Request(verb, uri, data, prepared);
    if |script| == 0 then Call(c1, Err(ConnectionFailed), [request])
    else if script[0].status != Unauthorized then Call(c1, Ok(Some(script[0].body)), [request])
    else if !repeat then Call(c1, Err(IncorrectPassword), [request])
    else
      var (c2, password) := ObtainPassword(c1, provider);
      match password
      case Err(e) => Call(c2, Err(e), [request])
      case Ok(None) => Call(c2, Ok(None), [request])
      case Ok(Some(_)) =>
        match script[0].challenge
        case None => Call(c2, Err(NoChallengeHeader), [request])
        case Some(challenge) =>
          var c3 := c2.(params := Some(ParseChallenge(challenge)));
          var retry := DoHttp(c3, H, provider, verb, uri, data, Some(prepared), false, script[1..]);
          Call(retry.client, retry.result, [request] + retry.sent)
  }

  /** Preparing the already prepared headers again keeps every promise made
      about the caller's headers. */
  lemma PreparedTwice(given: Headers, first: Headers, second: Headers, data: Option<seq<byte>>)
    requires Prepared(given, first, data) && Prepared(first, second, data)
    ensures Prepared(given, second, data)
  {
    if |given| > 0 {
      assert UserAgentHeader in first;
      assert |first| > 0;
    }
  }

  /** `request` carries the verb, path and body, and headers prepared from
      `given`. */
  ghost predicate SentFor(request: Request, verb: string, uri: string, data: Option<seq<byte>>, given: Headers) {
    request.verb == verb && request.uri == uri && request.body == data && Prepared(given, request.headers, data)
  }

  /** Every request a call sends carries its verb, path and body, and
      headers prepared from the caller's: the retry re-prepares the first
      attempt's headers, which keeps every promise about the caller's. */
  lemma SentRequestsPrepared(c: Client, H: Hash, provider: Provider, verb: string, uri: string,
                             data: Option<seq<byte>>, headers: Option<Headers>, repeat: bool, script: seq<Response>)
    ensures var r := DoHttp(c, H, provider, verb, uri, data, headers, repeat, script);
      forall i :: 0 <= i < |r.sent| ==> SentFor(r.sent[i], verb, uri, data, headers.GetOr(map[]))
  {
    var r := DoHttp(c, H, provider, verb, uri, data, headers, repeat, script);
    var given := headers.GetOr(map[]);
    assert SentFor(r.sent[0], verb, uri, data, given);
    if |r.sent| == 2 {
      assert SentFor(r.sent[1], verb, uri, data, r.sent[0].headers);
    }
    CallRequestsPrepared(r.sent, verb, uri, data, given);
  }

  /** Two requests, the first sent for the caller's headers and the
      second prepared again from the first's, are both sent for the
      caller's headers. */
  lemma CallRequestsPrepared(sent: seq<Request>, verb: string, uri: string, data: Option<seq<byte>>, given: Headers)
    requires 1 <= |sent| <= 2
    requires SentFor(sent[0], verb, uri, data, given)
    requires |sent| == 2 ==> SentFor(sent[1], verb, uri, data, sent[0].headers)
    ensures forall i :: 0 <= i < |sent| ==> SentFor(sent[i], verb, uri, data, given)
  {
    if |sent| == 2 {
      PreparedTwice(given, sent[0].headers, sent[1].headers, data);
    }
  }

  /** A call sends a second request exactly when the first was refused
      with a 401 on a first attempt, a password could be had, and the
      refusal carried a challenge. */
  lemma RetryExactlyWhen(c: Client, H: Hash, provider: Provider, verb: string, uri: string,
                          data: Option<seq<byte>>, headers: Option<Headers>, repeat: bool, script: seq<Response>)
    ensures |DoHttp(c, H, provider, verb, uri, data, headers, repeat, script).sent| == 2 <==>
      && repeat && |script| >= 1 && script[0].status == Unauthorized && script[0].challenge.Some?
      && (c.password.Some? || (c.hasAuth && provider(c.hostname, c.name).Some?))
  {
  }

  /** The retry is authorised by the challenge of the refusal: the stored
      parameters become that challenge, and the retry's `Authorization`
      is computed from it with the password just obtained, and kept. */
  lemma RetryUsesFreshChallenge(c: Client, H: Hash, provider: Provider, verb: string, uri: string,
                                data: Option<seq<byte>>, headers: Option<Headers>, repeat: bool, script: seq<Response>)
    requires repeat && |script| >= 1 && script[0].status == Unauthorized && script[0].challenge.Some?
    requires c.password.Some? || (c.hasAuth && provider(c.hostname, c.name).Some?)
    ensures var r := DoHttp(c, H, provider, verb, uri, data, headers, repeat, script);
      && |r.sent| == 2 && r.client.password.Some?
      && r.client.params == Some(ParseChallenge(script[0].challenge.value))
      && AuthorizationHeader in r.sent[1].headers
      && r.sent[1].headers[AuthorizationHeader] == Authorization(H, ParseChallenge(script[0].challenge.value), r.client.password, verb, uri)
      && r.client.authorization == Some(r.sent[1].headers[AuthorizationHeader])
  {
    RetryExactlyWhen(c, H, provider, verb, uri, data, headers, repeat, script);
  }

  /** A provider that answers `None` ends the call: it returns `None`
      after one request, with `None` stored as the password. */
  lemma ProviderNoneStopsCall(c: Client, H: Hash, provider: Provider, verb: string, uri: string,
                              data: Option<seq<byte>>, headers: Option<Headers>, script: seq<Response>)
    requires c.password.None? && c.hasAuth && provider(c.hostname, c.name).None?
    requires |script| >= 1 && script[0].status == Unauthorized
    ensures var r := DoHttp(c, H, provider, verb, uri, data, headers, true, script);
      r.result == Ok(None) && |r.sent| == 1 && r.client.password.None? && r.client.params == c.params
  {
  }

  /** `set_auth` decides where a missing password comes from: with a
      provider installed a refused request asks it and keeps its answer;
      with the provider removed the request raises "Authentication
      required". */
  lemma SetAuthDecidesPasswordSource(c: Client, H: Hash, provider: Provider, verb: string, uri: string,
                                     data: Option<seq<byte>>, headers: Option<Headers>, script: seq<Response>)
    requires c.password.None?
    requires |script| >= 1 && script[0].status == Unauthorized
    ensures DoHttp(SetAuth(c, true), H, provider, verb, uri, data, headers, true, script).client.password
      == provider(c.hostname, c.name)
    ensures DoHttp(SetAuth(c, false), H, provider, verb, uri, data, headers, true, script).result
      == Err(AuthenticationRequired)
  {
    var on, off := SetAuth(c, true), SetAuth(c, false);
    assert on.password.None? && on.hasAuth && on.hostname == c.hostname && on.name == c.name;
    ProviderAnswerKept(on, H, provider, verb, uri, data, headers, script);
    assert off.password.None? && !off.hasAuth;
    NoPasswordSourceRaises(off, H, provider, verb, uri, data, headers, script);
  }

  /** A refused first attempt without a stored password keeps whatever the
      provider answers as the password. */
  lemma ProviderAnswerKept(c: Client, H: Hash, provider: Provider, verb: string, uri: string,
                           data: Option<seq<byte>>, headers: Option<Headers>, script: seq<Response>)
    requires c.password.None? && c.hasAuth
    requires |script| >= 1 && script[0].status == Unauthorized
    ensures DoHttp(c, H, provider, verb, uri, data, headers, true, script).client.password == provider(c.hostname, c.name)
  {
  }

  /** With no password and no provider a 401 raises "Authentication
      required". */
  lemma NoPasswordSourceRaises(c: Client, H: Hash, provider: Provider, verb: string, uri: string,
                               data: Option<seq<byte>>, headers: Option<Headers>, script: seq<Response>)
    requires c.password.None? && !c.hasAuth
    requires |script| >= 1 && script[0].status == Unauthorized
    ensures var r := DoHttp(c, H, provider, verb, uri, data, headers, true, script);
      r.result == Err(AuthenticationRequired) && |r.sent| == 1 && r.client.params == c.params
  {
  }

  /** A 401 without `WWW-Authenticate`, once a password is at hand, fails
      in the parser. */
  lemma MissingChallengeRaises(c: Client, H: Hash, provider: Provider, verb: string, uri: string,
                               data: Option<seq<byte>>, headers: Option<Headers>, script: seq<Response>)
    requires c.password.Some? || (c.hasAuth && provider(c.hostname, c.name).Some?)
    requires |script| >= 1 && script[0].status == Unauthorized && script[0].challenge.None?
    ensures var r := DoHttp(c, H, provider, verb, uri, data, headers, true, script);
      r.result == Err(NoChallengeHeader) && |r.sent| == 1 && r.client.params == c.params
  {
  }

  /** A retry refused again raises "Incorrect password", with the new
      challenge kept. */
  lemma SecondRefusalRaises(c: Client, H: Hash, provider: Provider, verb: string, uri: string,
                            data: Option<seq<byte>>, headers: Option<Headers>, script: seq<Response>)
    requires c.password.Some? || (c.hasAuth && provider(c.hostname, c.name).Some?)
    requires |script| >= 2 && script[0].status == Unauthorized && script[0].challenge.Some? && script[1].status == Unauthorized
    ensures var r := DoHttp(c, H, provider, verb, uri, data, headers, true, script);
      && r.result == Err(IncorrectPassword) && |r.sent| == 2
      && r.client.params == Some(ParseChallenge(script[0].challenge.value))
  {
  }

  /** A stored password is used as it is: the provider is never consulted,
      so the call does not depend on it. */
  lemma StoredPasswordIgnoresProvider(c: Client, H: Hash, p1: Provider, p2: Provider, verb: string, uri: string,
                                      data: Option<seq<byte>>, headers: Option<Headers>, repeat: bool, script: seq<Response>)
    requires c.password.Some?
    ensures DoHttp(c, H, p1, verb, uri, data, headers, repeat, script) == DoHttp(c, H, p2, verb, uri, data, headers, repeat, script)
  {
  }

  /** Once a challenge is stored, the next call authorises its first
      request with it, without waiting for a 401. */
  lemma SessionReuse(c: Client, H: Hash, provider: Provider, verb: string, uri: string,
                     data: Option<seq<byte>>, headers: Option<Headers>, repeat: bool, script: seq<Response>)
    requires c.params.Some?
    ensures var r := DoHttp(c, H, provider, verb, uri, data, headers, repeat, script);
      && AuthorizationHeader in r.sent[0].headers
      && r.sent[0].headers[AuthorizationHeader] == Authorization(H, c.params.value, c.password, verb, uri)
  {
  }

  // ---------------------------------------------------------------------------
  // Stop and photo
  // ---------------------------------------------------------------------------

  /** `stop()`: `POST /stop`, then the stored challenge is dropped; any
      exception is swallowed, and then the challenge stays. Stopping the
      photo thread only drops a reference and is not modelled. */
  function Stop(c: Client, H: Hash, provider: Provider, script: seq<Response>): (r: (Client, seq<Request>))
    ensures 1 <= |r.1| <= 2 && r.1[0].verb == "POST" && r.1[0].uri == "/stop" && r.1[0].body.None?
    ensures var call := DoHttp(c, H, provider, "POST", "/stop", None, None, true, script);
      && r.1 == call.sent
      && (call.result.Ok? ==> r.0 == call.client.(params := None))
      && (call.result.Err? ==> r.0 == call.client)
    ensures SameReceiver(c, r.0)
    ensures |script| >= 1 && script[0].status != Unauthorized ==> r.0.params.None?
    ensures |script| == 0 ==> r.0.params == c.params
    ensures r.0.params.Some? ==> r.0.params == c.params || (|script| >= 1 && script[0].challenge.Some? && r.0.params == Some(ParseChallenge(script[0].challenge.value)))
  {
    var call := DoHttp(c, H, provider, "POST", "/stop", None, None, true, script);
    if call.result.Ok? then (call.client.(params := None), call.sent)
    else (call.client, call.sent)
  }

  /** Without a stored challenge, `POST /stop` hands an empty header map to
      the connection: the map is still empty when `User-Agent` would be
      added. */
  lemma StopWithoutChallengePassesNoHeaders(c: Client, H: Hash, provider: Provider, script: seq<Response>)
    requires c.params.None?
    ensures Stop(c, H, provider, script).1[0].headers == map[]
  {
  }

  /** The challenge is dropped exactly when `POST /stop` returned normally:
      a refused retry keeps the challenge it received. */
  lemma StopKeepsChallengeOnError(c: Client, H: Hash, provider: Provider, script: seq<Response>)
    requires c.password.Some? || (c.hasAuth && provider(c.hostname, c.name).Some?)
    requires |script| >= 2 && script[0].status == Unauthorized && script[0].challenge.Some? && script[1].status == Unauthorized
    ensures Stop(c, H, provider, script).0.params == Some(ParseChallenge(script[0].challenge.value))
  {
    SecondRefusalRaises(c, H, provider, "POST", "/stop", None, None, script);
  }

  /** Whichever way `POST /stop` returns normally, the challenge is
      dropped: an answer accepted after a retry, or a provider declining to
      give a password, also clear it. Only a raised exception keeps it. */
  lemma StopClearsExactlyOnReturn(c: Client, H: Hash, provider: Provider, script: seq<Response>)
    ensures var call := DoHttp(c, H, provider, "POST", "/stop", None, None, true, script);
      Stop(c, H, provider, script).0.params.None? <==> call.result.Ok? || call.client.params.None?
  {
  }

  /** A refused `POST /stop` answered on its retry still drops the
      challenge, after two requests. */
  lemma StopAfterAcceptedRetry(c: Client, H: Hash, provider: Provider, script: seq<Response>)
    requires c.password.Some? || (c.hasAuth && provider(c.hostname, c.name).Some?)
    requires |script| >= 2 && script[0].status == Unauthorized && script[0].challenge.Some? && script[1].status != Unauthorized
    ensures var r := Stop(c, H, provider, script);
      r.0.params.None? && |r.1| == 2
  {
    RetryExactlyWhen(c, H, provider, "POST", "/stop", None, None, true, script);
  }

  /** A provider declining to give a password ends `POST /stop` normally,
      so the challenge is dropped too. */
  lemma StopWhenProviderDeclines(c: Client, H: Hash, provider: Provider, script: seq<Response>)
    requires c.password.None? && c.hasAuth && provider(c.hostname, c.name).None?
    requires |script| >= 1 && script[0].status == Unauthorized
    ensures var r := Stop(c, H, provider, script);
      r.0.params.None? && |r.1| == 1 && r.0.password.None?
  {
    ProviderNoneStopsCall(c, H, provider, "POST", "/stop", None, None, script);
  }

  /** The transition effects a photo can be shown with. */
  datatype Transition = NoTransition | SlideLeft | SlideRight | Dissolve

  /** The header value of each transition. */
  function TransitionName(t: Transition): (n: string)
    ensures |n| > 0
  {
    match t
    case NoTransition => "None"
    case SlideLeft => "SlideLeft"
    case SlideRight => "SlideRight"
    case Dissolve => "Dissolve"
  }

  /** The receiver can tell the transitions apart by their header value. */
  lemma TransitionNamesDistinct(a: Transition, b: Transition)
    ensures TransitionName(a) == TransitionName(b) <==> a == b
  {
  }

  /** `_photo_raw(image, transition)` with the JPEG bytes of the image:
      `PUT /photo` with the transition header. */
  function PhotoRaw(c: Client, H: Hash, provider: Provider, jpeg: seq<byte>, t: Transition, script: seq<Response>): (r: Call)
    ensures 1 <= |r.sent| <= 2
    ensures r.sent[0].verb == "PUT" && r.sent[0].uri == "/photo" && r.sent[0].body == Some(jpeg)
  {
    DoHttp(c, H, provider, "PUT", "/photo", Some(jpeg), Some(map[TransitionHeader := TransitionName(t)]), true, script)
  }

  /** The transition, the client's `User-Agent` and the length of the JPEG
      data are all in `headers`. */
  ghost predicate PhotoHeadersOf(headers: Headers, jpeg: seq<byte>, t: Transition) {
    && TransitionHeader in headers && headers[TransitionHeader] == TransitionName(t)
    && UserAgentHeader in headers && headers[UserAgentHeader] == UserAgent
    && ContentLengthHeader in headers && headers[ContentLengthHeader] == DecimalString(|jpeg|)
    && DecimalValue(headers[ContentLengthHeader]) == |jpeg|
  }

  lemma PhotoRequestHeaders(request: Request, jpeg: seq<byte>, t: Transition)
    requires SentFor(request, "PUT", "/photo", Some(jpeg), map[TransitionHeader := TransitionName(t)])
    ensures PhotoHeadersOf(request.headers, jpeg, t)
  {
    var given := map[TransitionHeader := TransitionName(t)];
    assert !Managed(TransitionHeader) && TransitionHeader in given && |given| > 0 && UserAgentHeader !in given;
    DecimalRoundTrip(|jpeg|);
  }

  /** Every photo request carries the transition, the client's
      `User-Agent`, and the length of the JPEG data. */
  lemma PhotoHeaders(c: Client, H: Hash, provider: Provider, jpeg: seq<byte>, t: Transition, script: seq<Response>)
    ensures var r := PhotoRaw(c, H, provider, jpeg, t, script);
      forall i :: 0 <= i < |r.sent| ==> PhotoHeadersOf(r.sent[i].headers, jpeg, t)
  {
    var headers := Some(map[TransitionHeader := TransitionName(t)]);
    var r := PhotoRaw(c, H, provider, jpeg, t, script);
    assert r == DoHttp(c, H, provider, "PUT", "/photo", Some(jpeg), headers, true, script);
    SentRequestsPrepared(c, H, provider, "PUT", "/photo", Some(jpeg), headers, true, script);
    PhotoRequestsHeaders(r.sent, jpeg, t, headers.GetOr(map[]));
  }

  lemma PhotoRequestsHeaders(sent: seq<Request>, jpeg: seq<byte>, t: Transition, given: Headers)
    requires given == map[TransitionHeader := TransitionName(t)]
    requires forall i :: 0 <= i < |sent| ==> SentFor(sent[i], "PUT", "/photo", Some(jpeg), given)
    ensures forall i :: 0 <= i < |sent| ==> PhotoHeadersOf(sent[i].headers, jpeg, t)
  {
    forall i | 0 <= i < |sent|
      ensures PhotoHeadersOf(sent[i].headers, jpeg, t)
    {
      PhotoRequestHeaders(sent[i], jpeg, t);
    }
  }

  // ---------------------------------------------------------------------------
  // Console password provider
  // ---------------------------------------------------------------------------

  /** How `AuthConsole` names the receiver: the hostname alone when it is
      also the name, otherwise `name (hostname)`. */
  function ConsoleLabel(hostname: string, name: string): (display: string)
    ensures display == hostname <==> hostname == name
    ensures hostname != name ==>
      && |display| == |name| + |hostname| + 3
      && display[..|name|] == name
      && display[|name|..|name| + 2] == " ("
      && display[|display| - |hostname| - 1..] == hostname + ")"
  {
    if hostname == name then hostname else name + " (" + hostname + ")"
  }

  /** The question `AuthConsole` asks. */
  function PasswordPrompt(hostname: string, name: string): string {
    "Please input password for " + ConsoleLabel(hostname, name) + ": "
  }

  /** The question names the receiver both ways: the prompt shows the
      name and the hostname. */
  lemma PromptShowsReceiver(hostname: string, name: string)
    ensures Contains(PasswordPrompt(hostname, name), name)
    ensures Contains(PasswordPrompt(hostname, name), hostname)
  {
    var head := "Please input password for ";
    var shown := ConsoleLabel(hostname, name);
    var p := PasswordPrompt(hostname, name);
    assert p == head + shown + ": ";
    assert p[|head|..|head| + |shown|] == shown;
    if hostname == name {
      assert OccursAt(p, name, |head|);
    } else {
      assert p[|head|..|head| + |name|] == shown[..|name|];
      assert OccursAt(p, name, |head|);
      var at := |head| + |shown| - |hostname| - 1;
      assert p[at..at + |hostname|] == shown[|shown| - |hostname| - 1..][..|hostname|];
      assert OccursAt(p, hostname, at);
    }
  }

  /** `AuthConsole`: whatever the console answers to the prompt is the
      password; `input` is the console. */
  function ConsoleProvider(input: string -> string): Provider {
    (hostname: string, name: string) => Some(input(PasswordPrompt(hostname, name)))
  }

  /** With the console provider a call never ends with `None`: a 401 that
      carries a challenge is always retried. */
  lemma ConsoleNeverDeclines(c: Client, H: Hash, input: string -> string, verb: string, uri: string,
                             data: Option<seq<byte>>, headers: Option<Headers>, script: seq<Response>)
    requires c.hasAuth
    ensures DoHttp(c, H, ConsoleProvider(input), verb, uri, data, headers, true, script).result != Ok(None)
    ensures |script| >= 1 && script[0].status == Unauthorized && script[0].challenge.Some? ==>
      |DoHttp(c, H, ConsoleProvider(input), verb, uri, data, headers, true, script).sent| == 2
  {
    RetryExactlyWhen(c, H, ConsoleProvider(input), verb, uri, data, headers, true, script);
  }
}

=== FILE: digest.dfy ===
/** HTTP digest authentication as the AirPlay client performs it: the ad-hoc
    parser for a `WWW-Authenticate` challenge and the builder of the
    `Authorization` value (the request-digest of section 3.2.2.1 of RFC 2617
    without `qop`). The MD5 hex digest is a parameter `H`, left uninterpreted. */
module DigestAuth {
  import opened Results
  import opened PyStrings

  /** Challenge parameters: attribute name to unquoted value. */
  type Params = map<string, string>

  /** An MD5-like digest function, `hashlib.md5(s).hexdigest()` in the client. */
  type Hash = string -> string

  /** The fixed client identity. */
  const Username := "Airplay"

  /** The only separator the parser knows between attributes. */
  const Separator := ", "

  // ---------------------------------------------------------------------------
  // Challenge parser
  // ---------------------------------------------------------------------------

  /** What the parser reads of a challenge: everything after the first space
      (all of it when there is no space, since `find` then yields -1), with
      every CRLF turned into a space. */
  function AttributeText(challenge: string): (t: string)
    ensures ' ' !in challenge ==> t == ReplaceCrlf(challenge)
    ensures NoCrlf(t)
  {
    var firstSpace := FindChar(challenge, ' ');
    ReplaceCrlf(challenge[firstSpace + 1..])
  }

  /** An item the parser keeps: one holding an `=`. */
  predicate IsAttribute(item: string) {
    '=' in item
  }

  /** The attribute name: the text before the first `=`. */
  function AttrKey(item: string): (k: string)
    requires IsAttribute(item)
    ensures |k| < |item|
  {
    item[..FindChar(item, '=')]
  }

  /** The attribute value: the text after the first `=`, with every leading
      and trailing `"` removed. */
  function AttrValue(item: string): string
    requires IsAttribute(item)
  {
    Strip(item[FindChar(item, '=') + 1..], '"')
  }

  /** The names of all attributes among `items`. */
  ghost function AttrNames(items: seq<string>): set<string> {
    set i | 0 <= i < |items| && IsAttribute(items[i]) :: AttrKey(items[i])
  }

  /** Item `i` is an attribute and no later item is an attribute of the
      same name. */
  ghost predicate LastAttribute(items: seq<string>, i: int) {
    && 0 <= i < |items| && IsAttribute(items[i])
    && forall j :: i < j < |items| && IsAttribute(items[j]) ==> AttrKey(items[j]) != AttrKey(items[i])
  }

  /** The loop of `_get_auth_params` over the split items: each attribute
      is entered in order. */
  function ParseItems(items: seq<string>): Params {
    if |items| == 0 then map[]
    else
      var previous := ParseItems(items[..|items| - 1]);
      var last := items[|items| - 1];
      if IsAttribute(last) then previous[AttrKey(last) := AttrValue(last)] else previous
  }

  /** The parsed parameters are keyed by exactly the attribute names: items
      without an `=` are dropped, none is invented. */
  lemma {:induction false} ParseItemsKeys(items: seq<string>)
    ensures ParseItems(items).Keys == AttrNames(items)
  {
    if |items| > 0 {
      ParseItemsKeys(items[..|items| - 1]);
      AttrNamesStep(items);
    }
  }

  /** Each name holds the value of its last attribute: a later duplicate
      overwrites an earlier one. */
  lemma {:induction false} ParseItemsLastWins(items: seq<string>)
    ensures forall i :: LastAttribute(items, i) ==>
      AttrKey(items[i]) in ParseItems(items) && ParseItems(items)[AttrKey(items[i])] == AttrValue(items[i])
  {
    if |items| > 0 {
      var init, last := items[..|items| - 1], items[|items| - 1];
      var previous := ParseItems(init);
      var m := ParseItems(items);
      assert m == if IsAttribute(last) then previous[AttrKey(last) := AttrValue(last)] else previous;
      ParseItemsKeys(init);
      ParseItemsLastWins(init);
      forall i | LastAttribute(items, i)
        ensures AttrKey(items[i]) in m && m[AttrKey(items[i])] == AttrValue(items[i])
      {
        if i < |init| {
          EarlierLastAttribute(items, init, previous, m, i);
        }
      }
    }
  }

  /** The attribute names of `items` are those of all but its last item, plus
      the last item's when it is an attribute. */
  lemma AttrNamesStep(items: seq<string>)
    requires |items| > 0
    ensures
      var init, last := items[..|items| - 1], items[|items| - 1];
      AttrNames(items) == AttrNames(init) + (if IsAttribute(last) then {AttrKey(last)} else {})
  {
    var init, last := items[..|items| - 1], items[|items| - 1];
    forall i | 0 <= i < |init|
      ensures items[i] == init[i]
    {
    }
    var extra := if IsAttribute(last) then {AttrKey(last)} else {};
    forall k | k in AttrNames(items)
      ensures k in AttrNames(init) + extra
    {
      var i :| 0 <= i < |items| && IsAttribute(items[i]) && AttrKey(items[i]) == k;
      if i < |init| {
        assert k in AttrNames(init);
      }
    }
  }

  /** An attribute that is the last of its name in `items`, but not the
      final item, keeps the value the earlier items gave it. */
  lemma EarlierLastAttribute(items: seq<string>, init: seq<string>, previous: Params, m: Params, i: int)
    requires |items| > 0 && init == items[..|items| - 1]
    requires previous.Keys == AttrNames(init)
    requires forall i :: LastAttribute(init, i) ==> AttrKey(init[i]) in previous && previous[AttrKey(init[i])] == AttrValue(init[i])
    requires
      var last := items[|items| - 1];
      m == if IsAttribute(last) then previous[AttrKey(last) := AttrValue(last)] else previous
    requires LastAttribute(items, i) && i < |init|
    ensures AttrKey(items[i]) in m && m[AttrKey(items[i])] == AttrValue(items[i])
  {
    var last := items[|items| - 1];
    assert items[i] == init[i];
    var k := AttrKey(init[i]);
    assert IsAttribute(last) ==> AttrKey(last) != k;
    assert LastAttribute(init, i) by {
      forall j | i < j < |init| && IsAttribute(init[j])
        ensures AttrKey(init[j]) != k
      {
        assert init[j] == items[j];
      }
    }
    assert k in AttrNames(init);
    assert previous[k] == AttrValue(init[i]);
  }

  /** `_get_auth_params`: split the attribute text on `", "` and keep the
      attributes. */
  function ParseChallenge(challenge: string): Params {
    ParseItems(Split(AttributeText(challenge), Separator))
  }

  /** `_get_auth_params` as a whole: the parameters are keyed by exactly
      the names of the `", "`-separated items of the attribute text that
      hold an `=`, and each holds the value of the last such item. */
  lemma ChallengeAttributes(challenge: string)
    ensures var items := Split(AttributeText(challenge), Separator);
      && ParseChallenge(challenge).Keys == AttrNames(items)
      && forall i :: LastAttribute(items, i) ==>
           ParseChallenge(challenge)[AttrKey(items[i])] == AttrValue(items[i])
  {
    var items := Split(AttributeText(challenge), Separator);
    ParseItemsKeys(items);
    ParseItemsLastWins(items);
  }

  /** `find` yields `k` exactly when `k` holds the first `c`. */
  lemma {:induction false} FindCharIs(s: string, c: char, k: int)
    requires 0 <= k < |s| && s[k] == c && c !in s[..k]
    ensures FindChar(s, c) == k
  {
    if k > 0 {
      assert s[0] == s[..k][0];
      assert s[1..][..k - 1] == s[1..k];
      assert s[1..k] == s[..k][1..];
      FindCharIs(s[1..], c, k - 1);
    }
  }

  lemma FindCharAt(a: string, c: char, b: string)
    requires c !in a
    ensures FindChar(a + [c] + b, c) == |a|
  {
    var s := a + [c] + b;
    assert s[..|a|] == a;
    FindCharIs(s, c, |a|);
  }

  /** The scheme token, everything up to the first space, never takes part in
      the result: the parse is that of the text after it. */
  lemma SchemeDiscarded(scheme: string, rest: string)
    requires ' ' !in scheme
    ensures ParseChallenge(scheme + " " + rest) == ParseItems(Split(ReplaceCrlf(rest), Separator))
  {
    FindCharAt(scheme, ' ', rest);
    assert (scheme + " " + rest)[|scheme| + 1..] == rest;
  }

  /** One more item is entered when it is an attribute and dropped
      otherwise. */
  lemma ParseItemsSnoc(items: seq<string>, item: string)
    ensures ParseItems(items + [item])
      == if IsAttribute(item) then ParseItems(items)[AttrKey(item) := AttrValue(item)] else ParseItems(items)
  {
    assert (items + [item])[..|items|] == items;
  }

  // ---------------------------------------------------------------------------
  // Authorization builder
  // ---------------------------------------------------------------------------

  /** Python's `f"{v}"` for a value that may be `None`. */
  function Format(v: Option<string>): string {
    match v
    case Some(x) => x
    case None => "None"
  }

  /** `params.get(key)`. */
  function Lookup(params: Params, key: string): (r: Option<string>)
    ensures r.Some? <==> key in params
    ensures r.Some? ==> r.value == params[key]
  {
    if key in params then Some(params[key]) else None
  }

  /** A1 of section 3.2.2.2 of RFC 2617 with the fixed username. */
  function A1(realm: string, password: string): string {
    Username + ":" + realm + ":" + password
  }

  /** A2 of section 3.2.2.3 of RFC 2617 (no `qop`). */
  function A2(verb: string, uri: string): string {
    verb + ":" + uri
  }

  /** KD(secret, data) of section 3.2.1 of RFC 2617. */
  function KD(H: Hash, secret: string, data: string): string {
    H(secret + ":" + data)
  }

  /** The response as `_make_authorization` composes it; it is the
      request-digest of section 3.2.2.1 of RFC 2617 for a challenge
      without `qop`. */
  function RequestDigest(H: Hash, realm: string, password: string, nonce: string, verb: string, uri: string): (response: string)
    ensures response == KD(H, H(A1(realm, password)), nonce + ":" + H(A2(verb, uri)))
  {
    var ha1 := H(Username + ":" + realm + ":" + password);
    var ha2 := H(verb + ":" + uri);
    assert ha1 + ":" + nonce + ":" + ha2 == ha1 + ":" + (nonce + ":" + ha2);
    H(ha1 + ":" + nonce + ":" + ha2)
  }

  /** One `name="value"` field of the header. */
  function Field(name: string, value: string): string {
    name + "=\"" + value + "\""
  }

  /** The five fields of the header in their wire order. */
  function AuthorizationFields(realm: string, nonce: string, uri: string, response: string): seq<string> {
    [Field("username", Username), Field("realm", realm), Field("nonce", nonce), Field("uri", uri), Field("response", response)]
  }

  /** `_make_authorization`: realm and nonce come from the challenge (the
      text `None` when absent), the password is formatted the same way. */
  function Authorization(H: Hash, params: Params, password: Option<string>, verb: string, uri: string): string {
    var realm := Format(Lookup(params, "realm"));
    var nonce := Format(Lookup(params, "nonce"));
    var response := RequestDigest(H, realm, Format(password), nonce, verb, uri);
    "Digest " + Join(AuthorizationFields(realm, nonce, uri, response), Separator)
  }

  /** The header reads `Digest username="Airplay", realm="<realm>",
      nonce="<nonce>", uri="<uri>", response="<response>"`: five quoted
      fields in this order, each followed by `", "` but the last. */
  lemma AuthorizationLayout(H: Hash, params: Params, password: Option<string>, verb: string, uri: string)
    ensures
      var realm := Format(Lookup(params, "realm"));
      var nonce := Format(Lookup(params, "nonce"));
      var response := RequestDigest(H, realm, Format(password), nonce, verb, uri);
      Authorization(H, params, password, verb, uri)
      == "Digest " + (Field("username", Username) + ", " + (Field("realm", realm) + ", " + (Field("nonce", nonce) + ", "
         + (Field("uri", uri) + ", " + Field("response", response)))))
  {
    var realm := Format(Lookup(params, "realm"));
    var nonce := Format(Lookup(params, "nonce"));
    var response := RequestDigest(H, realm, Format(password), nonce, verb, uri);
    var f0, f1, f2, f3, f4 := Field("username", Username), Field("realm", realm), Field("nonce", nonce),
      Field("uri", uri), Field("response", response);
    assert [f3, f4][1..] == [f4];
    assert Join([f3, f4], Separator) == f3 + Separator + f4;
    assert [f2, f3, f4][1..] == [f3, f4];
    assert Join([f2, f3, f4], Separator) == f2 + Separator + Join([f3, f4], Separator);
    assert [f1, f2, f3, f4][1..] == [f2, f3, f4];
    assert Join([f1, f2, f3, f4], Separator) == f1 + Separator + Join([f2, f3, f4], Separator);
    assert [f0, f1, f2, f3, f4][1..] == [f1, f2, f3, f4];
    assert AuthorizationFields(realm, nonce, uri, response) == [f0, f1, f2, f3, f4];
  }

  /** The header depends on the password only through H(A1): it never
      carries the password itself. */
  lemma AuthorizationHidesPassword(H: Hash, params: Params, p1: string, p2: string, verb: string, uri: string)
    requires
      var realm := Format(Lookup(params, "realm"));
      H(A1(realm, p1)) == H(A1(realm, p2))
    ensures Authorization(H, params, Some(p1), verb, uri) == Authorization(H, params, Some(p2), verb, uri)
  {
  }

  // ---------------------------------------------------------------------------
  // The parser reads back what the builder writes
  // ---------------------------------------------------------------------------

  /** A field value the ad-hoc parser can carry: no quote, comma or CR. */
  predicate PlainValue(v: string) {
    forall i :: 0 <= i < |v| ==> v[i] != '"' && v[i] != ',' && v[i] != '\r'
  }

  /** What `hexdigest()` yields: 32 lower-case hex digits. */
  predicate IsHexDigest(d: string) {
    |d| == 32 && forall i :: 0 <= i < |d| ==> d[i] in "0123456789abcdef"
  }

  lemma NoCommaNoSeparator(s: string)
    requires ',' !in s
    ensures !Contains(s, Separator)
  {
    forall j
      ensures !OccursAt(s, Separator, j)
    {
      if 0 <= j && j + 2 <= |s| {
        assert s[j..j + 2][0] == s[j];
      }
    }
  }

  lemma NoCrInJoin(parts: seq<string>, sep: string)
    requires '\r' !in sep
    requires forall k :: 0 <= k < |parts| ==> '\r' !in parts[k]
    ensures '\r' !in Join(parts, sep)
  {
  }

  lemma FieldChars(name: string, value: string)
    requires PlainValue(name) && PlainValue(value)
    ensures ',' !in Field(name, value) && '\r' !in Field(name, value)
  {
    assert ',' !in value && '\r' !in value && ',' !in name && '\r' !in name;
  }

  /** A field whose name has no `=` and whose value has no quote is read
      back as that name and value. */
  lemma FieldReadsBack(name: string, value: string)
    requires '=' !in name && '"' !in value
    ensures IsAttribute(Field(name, value))
    ensures AttrKey(Field(name, value)) == name
    ensures AttrValue(Field(name, value)) == value
  {
    var item := Field(name, value);
    var quoted := ['"'] + value + ['"'];
    assert item == name + ['='] + quoted;
    FindCharAt(name, '=', quoted);
    assert item[|name| + 1..] == quoted;
    assert |value| == 0 || (value[0] != '"' && value[|value| - 1] != '"');
    StripSurrounded(value, '"');
  }

  /** A challenge made of a scheme token and attributes joined by `", "`,
      none holding a comma or CR, is parsed item by item. */
  lemma ParseJoined(scheme: string, items: seq<string>)
    requires ' ' !in scheme && |items| >= 1
    requires forall k :: 0 <= k < |items| ==> ',' !in items[k] && '\r' !in items[k]
    ensures ParseChallenge(scheme + " " + Join(items, Separator)) == ParseItems(items)
  {
    var text := Join(items, Separator);
    SchemeDiscarded(scheme, text);
    NoCrInJoin(items, Separator);
    assert ReplaceCrlf(text) == text;
    forall k | 0 <= k < |items|
      ensures !Contains(items[k], Separator)
    {
      NoCommaNoSeparator(items[k]);
    }
    CommaSpaceBorderless();
    SplitJoin(items, Separator);
  }

  /** A hex digest holds no quote, comma or CR. */
  lemma HexIsPlain(d: string)
    requires IsHexDigest(d)
    ensures PlainValue(d)
  {
    forall i | 0 <= i < |d|
      ensures d[i] != '"' && d[i] != ',' && d[i] != '\r'
    {
      assert d[i] in "0123456789abcdef";
    }
  }

  /** Both facts about one field the round trip needs. */
  lemma FieldFacts(name: string, value: string)
    requires '=' !in name && PlainValue(name) && PlainValue(value)
    ensures IsAttribute(Field(name, value)) && AttrKey(Field(name, value)) == name && AttrValue(Field(name, value)) == value
    ensures ',' !in Field(name, value) && '\r' !in Field(name, value)
  {
    FieldReadsBack(name, value);
    FieldChars(name, value);
  }

  /** A field name the parser can carry: plain and without `=`. */
  predicate PlainName(n: string) {
    '=' !in n && PlainValue(n)
  }

  /** Five attributes are entered one after the other, a later one
      overriding an earlier one of the same name. */
  lemma ParseFiveAttributes(i0: string, i1: string, i2: string, i3: string, i4: string)
    requires IsAttribute(i0) && IsAttribute(i1) && IsAttribute(i2) && IsAttribute(i3) && IsAttribute(i4)
    ensures ParseItems([i0, i1, i2, i3, i4])
      == map[AttrKey(i0) := AttrValue(i0), AttrKey(i1) := AttrValue(i1), AttrKey(i2) := AttrValue(i2),
             AttrKey(i3) := AttrValue(i3), AttrKey(i4) := AttrValue(i4)]
  {
    ParseItemsSnoc([], i0);
    assert [] + [i0] == [i0];
    ParseItemsSnoc([i0], i1);
    assert [i0] + [i1] == [i0, i1];
    ParseItemsSnoc([i0, i1], i2);
    assert [i0, i1] + [i2] == [i0, i1, i2];
    ParseItemsSnoc([i0, i1, i2], i3);
    assert [i0, i1, i2] + [i3] == [i0, i1, i2, i3];
    ParseItemsSnoc([i0, i1, i2, i3], i4);
    assert [i0, i1, i2, i3] + [i4] == [i0, i1, i2, i3, i4];
  }

  /** Five plain fields are entered one after the other. */
  lemma ParseFiveFields(n0: string, v0: string, n1: string, v1: string, n2: string, v2: string,
                        n3: string, v3: string, n4: string, v4: string)
    requires PlainName(n0) && PlainName(n1) && PlainName(n2) && PlainName(n3) && PlainName(n4)
    requires PlainValue(v0) && PlainValue(v1) && PlainValue(v2) && PlainValue(v3) && PlainValue(v4)
    ensures ParseItems([Field(n0, v0), Field(n1, v1), Field(n2, v2), Field(n3, v3), Field(n4, v4)])
      == map[n0 := v0, n1 := v1, n2 := v2, n3 := v3, n4 := v4]
  {
    FieldReadsBack(n0, v0);
    FieldReadsBack(n1, v1);
    FieldReadsBack(n2, v2);
    FieldReadsBack(n3, v3);
    FieldReadsBack(n4, v4);
    ParseFiveAttributes(Field(n0, v0), Field(n1, v1), Field(n2, v2), Field(n3, v3), Field(n4, v4));
  }

  /** Five plain fields joined by `", "` after a scheme token parse back to
      exactly their names and values. */
  lemma FiveFieldsRoundTrip(n0: string, v0: string, n1: string, v1: string, n2: string, v2: string,
                            n3: string, v3: string, n4: string, v4: string)
    requires PlainName(n0) && PlainName(n1) && PlainName(n2) && PlainName(n3) && PlainName(n4)
    requires PlainValue(v0) && PlainValue(v1) && PlainValue(v2) && PlainValue(v3) && PlainValue(v4)
    ensures ParseChallenge("Digest " + Join([Field(n0, v0), Field(n1, v1), Field(n2, v2), Field(n3, v3), Field(n4, v4)], Separator))
      == map[n0 := v0, n1 := v1, n2 := v2, n3 := v3, n4 := v4]
  {
    var fields := [Field(n0, v0), Field(n1, v1), Field(n2, v2), Field(n3, v3), Field(n4, v4)];
    var names, values := [n0, n1, n2, n3, n4], [v0, v1, v2, v3, v4];
    forall k | 0 <= k < 5
      ensures ',' !in fields[k] && '\r' !in fields[k]
    {
      assert fields[k] == Field(names[k], values[k]);
      FieldChars(names[k], values[k]);
    }
    ParseJoined("Digest", fields);
    assert "Digest" + " " == "Digest ";
    ParseFiveFields(n0, v0, n1, v1, n2, v2, n3, v3, n4, v4);
  }

  /** Parsing the header `_make_authorization` builds gives back exactly its
      five fields, provided realm, nonce and uri are plain and the digest is
      an MD5-style hex string. */
  lemma AuthorizationRoundTrip(H: Hash, params: Params, password: Option<string>, verb: string, uri: string)
    requires forall x :: IsHexDigest(H(x))
    requires PlainValue(Format(Lookup(params, "realm")))
    requires PlainValue(Format(Lookup(params, "nonce")))
    requires PlainValue(uri)
    ensures
      var realm := Format(Lookup(params, "realm"));
      var nonce := Format(Lookup(params, "nonce"));
      ParseChallenge(Authorization(H, params, password, verb, uri))
      == map["username" := Username, "realm" := realm, "nonce" := nonce, "uri" := uri,
             "response" := RequestDigest(H, realm, Format(password), nonce, verb, uri)]
  {
    var realm := Format(Lookup(params, "realm"));
    var nonce := Format(Lookup(params, "nonce"));
    var response := RequestDigest(H, realm, Format(password), nonce, verb, uri);
    HexIsPlain(response);
    FiveFieldsRoundTrip("username", Username, "realm", realm, "nonce", nonce, "uri", uri, "response", response);
  }

  /** `name="value` with the closing quote missing. */
  function OpenField(name: string, value: string): string {
    name + "=\"" + value
  }

  /** `text"`: the tail of a quoted value. */
  function ClosingPiece(text: string): string {
    text + "\""
  }

  /** An attribute whose value opens with a quote that is never closed
      reads as that value. */
  lemma OpenFieldReadsBack(name: string, value: string)
    requires '=' !in name && PlainValue(value)
    ensures IsAttribute(OpenField(name, value))
    ensures AttrKey(OpenField(name, value)) == name && AttrValue(OpenField(name, value)) == value
  {
    var item := OpenField(name, value);
    var quoted := ['"'] + value;
    assert item == name + ['='] + quoted;
    FindCharAt(name, '=', quoted);
    assert item[|name| + 1..] == quoted;
    assert |value| == 0 || (value[0] != '"' && value[|value| - 1] != '"');
    StripLeading(value, '"');
  }

  lemma OpenFieldChars(name: string, value: string)
    requires PlainValue(name) && PlainValue(value)
    ensures ',' !in OpenField(name, value) && '\r' !in OpenField(name, value)
  {
    assert ',' !in value && '\r' !in value && ',' !in name && '\r' !in name;
  }

  lemma ClosingPieceIgnored(text: string)
    requires PlainValue(text) && '=' !in text
    ensures !IsAttribute(ClosingPiece(text))
    ensures ',' !in ClosingPiece(text) && '\r' !in ClosingPiece(text)
  {
    assert ',' !in text && '\r' !in text;
  }

  /** Three items with no comma or CR parse item by item. */
  lemma ParseThree(a: string, b: string, c: string)
    requires ',' !in a && '\r' !in a && ',' !in b && '\r' !in b && ',' !in c && '\r' !in c
    ensures ParseChallenge("Digest " + Join([a, b, c], Separator)) == ParseItems([a, b, c])
  {
    var items := [a, b, c];
    forall k | 0 <= k < 3
      ensures ',' !in items[k] && '\r' !in items[k]
    {
    }
    ParseJoined("Digest", items);
    assert "Digest" + " " == "Digest ";
  }

  /** The parser is not the challenge grammar of RFC 2617: a `", "` inside a
      quoted value ends the attribute there; the value keeps only its part
      before the comma and the part after it, having no `=`, is dropped. */
  lemma QuotedSeparatorTruncates(name: string, front: string, back: string, next: string, nextValue: string)
    requires PlainName(name) && PlainValue(front) && PlainValue(back) && '=' !in back
    requires PlainName(next) && PlainValue(nextValue)
    ensures ParseChallenge("Digest " + Join([OpenField(name, front), ClosingPiece(back), Field(next, nextValue)], Separator))
      == map[name := front, next := nextValue]
  {
    var a, b, c := OpenField(name, front), ClosingPiece(back), Field(next, nextValue);
    OpenFieldReadsBack(name, front);
    OpenFieldChars(name, front);
    ClosingPieceIgnored(back);
    FieldFacts(next, nextValue);
    ParseThree(a, b, c);
    ParseSkippingMiddle(a, b, c);
  }

  /** Of three items, an attribute, a non-attribute and an attribute, the
      middle one is dropped. */
  lemma ParseSkippingMiddle(a: string, b: string, c: string)
    requires IsAttribute(a) && !IsAttribute(b) && IsAttribute(c)
    ensures ParseItems([a, b, c]) == map[AttrKey(a) := AttrValue(a), AttrKey(c) := AttrValue(c)]
  {
    ParseItemsSnoc([], a);
    assert [] + [a] == [a];
    ParseItemsSnoc([a], b);
    assert [a] + [b] == [a, b];
    ParseItemsSnoc([a, b], c);
    assert [a, b] + [c] == [a, b, c];
  }
}

=== FILE: geometry.dfy ===
/** The image-fitting arithmetic of the AirPlay client: the receiver's screen
    size and aspect, `set_screen_size`, and `_scale_image`, which shrinks an
    image that does not fit the screen while keeping its aspect.

    The client computes with floats and truncates with `int()`; here the
    aspects are exact fractions compared by cross-multiplication and the
    truncation is integer division, which is the floor for the non-negative
    sizes involved. */
module Geometry {
  import opened Results

  type Positive = n: int | n > 0 witness 1

  /** Width and height of an image or a screen, in pixels. */
  datatype Size = Size(width: nat, height: nat)

  /** The receiver's screen as the client remembers it. The aspect is kept
      apart from the size as the fraction `aspectNum / aspectDen`, because
      the client stores it in a field of its own. */
  datatype Screen = Screen(width: nat, height: nat, aspectNum: nat, aspectDen: Positive)

  /** The exception a float division by zero raises. */
  datatype ArithError = ZeroDivision

  const DefaultWidth: nat := 1280
  const DefaultHeight: nat := 720

  /** The screen a new client assumes: 1280x720 with aspect 1280/720. */
  const DefaultScreen := Screen(DefaultWidth, DefaultHeight, DefaultWidth, DefaultHeight)

  /** The stored aspect is the aspect of the stored size. */
  predicate Consistent(sc: Screen) {
    sc.height > 0 && sc.width * sc.aspectDen == sc.height * sc.aspectNum
  }

  lemma DefaultScreenConsistent()
    ensures Consistent(DefaultScreen)
    ensures DefaultScreen.width == 1280 && DefaultScreen.height == 720
  {
  }

  /** What `set_screen_size` leaves behind: the screen and whether the
      aspect computation raised. */
  datatype ScreenUpdate = ScreenUpdate(screen: Screen, raised: Option<ArithError>)

  /** `set_screen_size(width, height)`: width and height are assigned
      before the aspect `width / height` is computed, so a zero height
      raises with the new size stored and the old aspect kept. */
  function SetScreenSize(sc: Screen, width: nat, height: nat): (u: ScreenUpdate)
    ensures u.screen.width == width && u.screen.height == height
    ensures u.raised.Some? <==> height == 0
    ensures height > 0 ==> Consistent(u.screen)
    ensures height == 0 ==> u.screen.aspectNum == sc.aspectNum && u.screen.aspectDen == sc.aspectDen
  {
    if height == 0 then ScreenUpdate(sc.(width := width, height := height), Some(ZeroDivision))
    else ScreenUpdate(Screen(width, height, width, height), None)
  }

  /** A zero height leaves a screen whose aspect no longer matches its size:
      setting 1920x0 after the default keeps the aspect 1280/720. */
  lemma ZeroHeightLeavesStaleAspect()
    ensures
      var u := SetScreenSize(DefaultScreen, 1920, 0);
      && u.raised == Some(ZeroDivision)
      && u.screen == Screen(1920, 0, 1280, 720)
      && !Consistent(u.screen)
  {
  }

  /** The image fits the screen on both axes. */
  predicate Fits(sc: Screen, w: nat, h: nat) {
    w <= sc.width && h <= sc.height
  }

  /** The image is wider than the stored aspect: `w / h > aspect`, for a
      positive `h`. */
  predicate WiderThanAspect(sc: Screen, w: nat, h: nat) {
    w * sc.aspectDen > h * sc.aspectNum
  }

  /** `_scale_image` on an image of `w` by `h` pixels: an image that fits is
      left alone; otherwise, when the image is wider than the stored aspect,
      the width becomes the screen's and the height is the truncated
      `W / (w/h)`; else the height becomes the screen's and the width is the
      truncated `H * (w/h)`. Computing `w/h` divides by `h`. */
  function ScaleImage(sc: Screen, w: nat, h: nat): (r: Result<Size, ArithError>)
    ensures Fits(sc, w, h) ==> r == Ok(Size(w, h))
    ensures r.Err? <==> !Fits(sc, w, h) && h == 0
    ensures r.Ok? && !Fits(sc, w, h) && WiderThanAspect(sc, w, h) ==> r.value.width == sc.width
    ensures r.Ok? && !Fits(sc, w, h) && !WiderThanAspect(sc, w, h) ==> r.value.height == sc.height
  {
    if Fits(sc, w, h) then Ok(Size(w, h))
    else if h == 0 then Err(ZeroDivision)
    else if WiderThanAspect(sc, w, h) then
      WiderImageHasWidth(sc, w, h);
      Ok(Size(sc.width, ScaleSide(h, sc.width, w)))
    else Ok(Size(ScaleSide(w, sc.height, h), sc.height))
  }

  /** A side scaled by `p / q` and truncated: `int(side * p / q)`. */
  function ScaleSide(side: nat, p: nat, q: Positive): nat {
    assert side * p >= 0;
    side * p / q
  }

  /** Only an image with some width can be wider than an aspect. */
  lemma WiderImageHasWidth(sc: Screen, w: nat, h: nat)
    requires WiderThanAspect(sc, w, h)
    ensures w > 0
  {
    assert h * sc.aspectNum >= 0;
  }

  /** The side that follows keeps the image's aspect up to truncation: it
      is the largest whole number of pixels not exceeding the exact value. */
  lemma ScaleKeepsAspect(sc: Screen, w: nat, h: nat)
    requires !Fits(sc, w, h) && h > 0
    ensures var r := ScaleImage(sc, w, h).value;
      WiderThanAspect(sc, w, h) ==> r.height * w <= h * sc.width < (r.height + 1) * w
    ensures var r := ScaleImage(sc, w, h).value;
      !WiderThanAspect(sc, w, h) ==> r.width * h <= w * sc.height < (r.width + 1) * h
  {
    if WiderThanAspect(sc, w, h) {
      WiderImageHasWidth(sc, w, h);
      FloorDivBounds(h * sc.width, w);
    } else {
      FloorDivBounds(w * sc.height, h);
    }
  }

  /** Integer division is the floor: `q * d <= n < (q + 1) * d`. */
  lemma FloorDivBounds(n: nat, d: int)
    requires d > 0
    ensures (n / d) * d <= n < (n / d + 1) * d
  {
  }

  /** A multiple divides back exactly. */
  lemma MulDivCancel(a: nat, d: int)
    requires d > 0
    ensures a * d / d == a
  {
    FloorDivBounds(a * d, d);
    var q := a * d / d;
    MulMonotone(q, a, d);
    MulMonotone(a, q, d);
    assert (a + 1) * d == a * d + d;
    assert (q + 1) * d == q * d + d;
  }

  /** Multiplying both sides by a positive number keeps `<=`, both ways. */
  lemma MulMonotone(a: int, b: int, k: int)
    requires k > 0
    ensures a <= b <==> a * k <= b * k
  {
    if a <= b {
      assert b * k - a * k == (b - a) * k;
    } else {
      assert a * k - b * k == (a - b) * k;
    }
  }

  /** On a consistent screen, comparing the image with the stored aspect is
      comparing it with the screen size: `w/h > W/H` exactly when
      `w * H > h * W`. */
  lemma WiderThanScreen(sc: Screen, w: nat, h: nat)
    requires Consistent(sc)
    ensures WiderThanAspect(sc, w, h) <==> w * sc.height > h * sc.width
  {
    var W, H, num, den := sc.width, sc.height, sc.aspectNum, sc.aspectDen;
    MulMonotone(w * den, h * num, H);
    MulMonotone(w * H, h * W, den);
    assert (h * num) * H == h * (H * num);
    assert (h * W) * den == h * (W * den);
    assert (w * den) * H == (w * H) * den;
  }

  /** The largest uniform factor `p / q` by which the image still fits the
      screen: the smaller of `W / w` and `H / h`. */
  function FitFactor(W: nat, H: nat, w: nat, h: Positive): (f: (nat, Positive))
    ensures w * f.0 <= W * f.1 && h * f.0 <= H * f.1
    ensures w * f.0 == W * f.1 || h * f.0 == H * f.1
  {
    if w > 0 && w * H > h * W then
      assert h * W <= H * w;
      (W, w)
    else
      assert w * H <= W * h;
      (H, h)
  }

  /** The image scaled by `p / q` on both axes, each side truncated. */
  function ScaledBy(w: nat, h: nat, f: (nat, Positive)): Size {
    Size(ScaleSide(w, f.0, f.1), ScaleSide(h, f.0, f.1))
  }

  /** On a consistent screen, an image that does not fit is scaled by the
      largest uniform factor that makes it fit, each side truncated. */
  lemma ScaleIsLargestFit(sc: Screen, w: nat, h: nat)
    requires Consistent(sc) && !Fits(sc, w, h) && h > 0
    ensures ScaleImage(sc, w, h) == Ok(ScaledBy(w, h, FitFactor(sc.width, sc.height, w, h)))
  {
    var W, H := sc.width, sc.height;
    WiderThanScreen(sc, w, h);
    if WiderThanAspect(sc, w, h) {
      assert w > 0;
      MulDivCancel(W, w);
      assert w * W == W * w && h * W == W * h;
    } else {
      MulDivCancel(H, h);
      assert h * H == H * h && w * H == H * w;
    }
  }

  /** On a consistent screen the result always fits, and an image that did
      not fit shrinks on both axes. */
  lemma ScaledFits(sc: Screen, w: nat, h: nat)
    requires Consistent(sc)
    ensures ScaleImage(sc, w, h).Ok? ==> Fits(sc, ScaleImage(sc, w, h).value.width, ScaleImage(sc, w, h).value.height)
    ensures ScaleImage(sc, w, h).Ok? && !Fits(sc, w, h) ==>
      ScaleImage(sc, w, h).value.width <= w && ScaleImage(sc, w, h).value.height <= h
  {
    if !Fits(sc, w, h) && h > 0 {
      var W, H := sc.width, sc.height;
      var f := FitFactor(W, H, w, h);
      ScaleIsLargestFit(sc, w, h);
      DivFits(w, W, f.0, f.1);
      DivFits(h, H, f.0, f.1);
      if w > 0 && w * H > h * W {
        WideImageIsTooWide(W, H, w, h);
        Shrinks(h, W, w);
      } else {
        TallImageIsTooTall(W, H, w, h);
        Shrinks(w, H, h);
      }
    }
  }

  /** An image that does not fit and is wider than the screen is too wide. */
  lemma WideImageIsTooWide(W: nat, H: Positive, w: nat, h: nat)
    requires w * H > h * W && !(w <= W && h <= H)
    ensures W < w
  {
    MulMonotone(w, W, H);
    if W > 0 {
      MulMonotone(h, H, W);
      assert H * W == W * H;
    }
  }

  /** An image that does not fit and is not wider than the screen is too
      tall. */
  lemma TallImageIsTooTall(W: nat, H: Positive, w: nat, h: nat)
    requires w * H <= h * W && !(w <= W && h <= H)
    ensures H < h
  {
    MulMonotone(w, W, H);
    if W > 0 {
      MulMonotone(h, H, W);
      assert H * W == W * H;
    }
  }

  /** `x * p <= X * q` makes the truncated `x * p / q` at most `X`. */
  lemma DivFits(x: nat, X: nat, p: nat, q: Positive)
    requires x * p <= X * q
    ensures x * p / q <= X
  {
    FloorDivBounds(x * p, q);
    MulMonotone(x * p / q, X, q);
  }

  /** Scaling by `p / q < 1` does not grow a side. */
  lemma Shrinks(x: nat, p: nat, q: Positive)
    requires p < q
    ensures x * p / q <= x
  {
    if x > 0 {
      MulMonotone(p, q, x);
      assert x * p <= x * q;
      DivFits(x, x, p, q);
    }
  }

  /** Why `_scale_image` raises: the aspect `w / h` divides by a zero
      height, or Pillow's `resize` refuses a target with a zero side. */
  datatype ScaleError = DivideByZero | ZeroSide

  /** `_scale_image` including its final `resize`: the target size of
      `ScaleImage`, handed to `resize`, which refuses a zero side. An image
      that fits is returned without resizing. */
  function FitImage(sc: Screen, w: nat, h: nat): (r: Result<Size, ScaleError>)
    ensures Fits(sc, w, h) ==> r == Ok(Size(w, h))
    ensures r == Err(DivideByZero) <==> ScaleImage(sc, w, h).Err?
    ensures r == Err(ZeroSide) <==>
      ScaleImage(sc, w, h).Ok? && !Fits(sc, w, h) && (ScaleImage(sc, w, h).value.width == 0 || ScaleImage(sc, w, h).value.height == 0)
    ensures r.Ok? ==> ScaleImage(sc, w, h) == Ok(r.value)
    ensures r.Ok? && !Fits(sc, w, h) ==> r.value.width > 0 && r.value.height > 0
  {
    if Fits(sc, w, h) then Ok(Size(w, h))
    else
      match ScaleImage(sc, w, h)
      case Err(_) => Err(DivideByZero)
      case Ok(target) => if target.width == 0 || target.height == 0 then Err(ZeroSide) else Ok(target)
  }

  /** Integer division gives zero exactly when the dividend is smaller. */
  lemma DivIsZero(n: nat, d: int)
    requires d > 0
    ensures n / d == 0 <==> n < d
  {
    FloorDivBounds(n, d);
    if n / d > 0 {
      MulMonotone(1, n / d, d);
    }
  }

  /** On a consistent screen `resize` is refused exactly when the image is
      so thin that its shorter scaled side truncates to zero: a wide image
      with `h * W < w`, or a tall one with `w * H < h`. */
  lemma ZeroSideExactlyWhen(sc: Screen, w: nat, h: nat)
    requires Consistent(sc) && !Fits(sc, w, h) && h > 0
    ensures FitImage(sc, w, h) == Err(ZeroSide) <==>
      if w * sc.height > h * sc.width then h * sc.width < w else w * sc.height < h
  {
    var W, H := sc.width, sc.height;
    WiderThanScreen(sc, w, h);
    if WiderThanAspect(sc, w, h) {
      WiderImageHasWidth(sc, w, h);
      DivIsZero(h * W, w);
    } else {
      DivIsZero(w * H, h);
    }
  }

  /** A 3000x1 strip on the default screen would be resized to 1280x0, a
      1x3000 one to 0x720: both are refused. */
  lemma ThinImagesRefused()
    ensures ScaleImage(DefaultScreen, 3000, 1) == Ok(Size(1280, 0))
    ensures FitImage(DefaultScreen, 3000, 1) == Err(ZeroSide)
    ensures FitImage(DefaultScreen, 1, 3000) == Err(ZeroSide)
  {
  }

  lemma ScaleExamples()
    ensures ScaleImage(DefaultScreen, 100, 100) == Ok(Size(100, 100))
    ensures ScaleImage(DefaultScreen, 2560, 1440) == Ok(Size(1280, 720))
    ensures ScaleImage(DefaultScreen, 720, 1440) == Ok(Size(360, 720))
    ensures ScaleImage(DefaultScreen, 1300, 0) == Err(ZeroDivision)
  {
  }
}

=== FILE: pystrings.dfy ===
/** The handful of Python `str` operations the AirPlay client relies on,
    with CPython's behaviour for the arguments the client passes:
    `find` of one character, `split` on a non-empty separator, `replace`
    of CRLF by a space, `strip` of one character and `str` of a count. */
module PyStrings {

  /** `pat` occurs in `s` starting at index `i`. */
  ghost predicate OccursAt(s: string, pat: string, i: int) {
    0 <= i && i + |pat| <= |s| && s[i..i + |pat|] == pat
  }

  ghost predicate Contains(s: string, pat: string) {
    exists i :: OccursAt(s, pat, i)
  }

  /** `s.find(c)`: the index of the first `c` in `s`, or -1 when there is none. */
  function FindChar(s: string, c: char): (i: int)
    ensures -1 <= i < |s|
    ensures i == -1 <==> c !in s
    ensures 0 <= i ==> s[i] == c && c !in s[..i]
  {
    if |s| == 0 then -1
    else if s[0] == c then 0
    else
      var j := FindChar(s[1..], c);
      assert s[1..][..if j < 0 then 0 else j] == s[1..if j < 0 then 1 else j + 1];
      if j < 0 then -1 else j + 1
  }

  lemma OccursAtTail(s: string, pat: string, j: int)
    requires |s| > 0 && j >= 1
    ensures OccursAt(s, pat, j) <==> OccursAt(s[1..], pat, j - 1)
  {
    if j + |pat| <= |s| {
      assert s[1..][j - 1..j - 1 + |pat|] == s[j..j + |pat|];
    }
  }

  /** `s.find(pat)` for a non-empty pattern: the first index at which `pat`
      occurs in `s`, or -1. */
  function IndexOf(s: string, pat: string): (i: int)
    requires |pat| > 0
    ensures i == -1 || 0 <= i <= |s| - |pat|
    ensures 0 <= i ==> OccursAt(s, pat, i)
    ensures forall j :: 0 <= j && (i < 0 || j < i) ==> !OccursAt(s, pat, j)
    ensures 0 <= i <==> Contains(s, pat)
    decreases |s|
  {
    if |s| < |pat| then -1
    else if s[..|pat|] == pat then
      assert OccursAt(s, pat, 0);
      0
    else
      var j := IndexOf(s[1..], pat);
      assert forall k :: 1 <= k ==> (OccursAt(s, pat, k) <==> OccursAt(s[1..], pat, k - 1)) by {
        forall k | 1 <= k {
          OccursAtTail(s, pat, k);
        }
      }
      if j < 0 then -1 else j + 1
  }

  /** `sep.join(parts)`. */
  function Join(parts: seq<string>, sep: string): string {
    if |parts| == 0 then ""
    else if |parts| == 1 then parts[0]
    else parts[0] + sep + Join(parts[1..], sep)
  }

  /** A prefix of `s` that ends before the first occurrence of `pat` holds no
      occurrence of it. */
  lemma PrefixBeforeFirst(s: string, pat: string, i: int)
    requires |pat| > 0 && 0 <= i <= |s|
    requires forall j :: 0 <= j < i ==> !OccursAt(s, pat, j)
    ensures !Contains(s[..i], pat)
  {
    forall j
      ensures !OccursAt(s[..i], pat, j)
    {
      if 0 <= j && j + |pat| <= i {
        assert s[..i][j..j + |pat|] == s[j..j + |pat|];
        assert !OccursAt(s, pat, j);
      }
    }
  }

  /** `s.split(sep)` for a non-empty separator: the pieces between the
      occurrences of `sep` found scanning left to right. */
  function Split(s: string, sep: string): (parts: seq<string>)
    requires |sep| > 0
    ensures |parts| >= 1
    ensures Join(parts, sep) == s
    ensures forall k :: 0 <= k < |parts| ==> !Contains(parts[k], sep)
    decreases |s|
  {
    var i := IndexOf(s, sep);
    if i < 0 then
      PrefixBeforeFirst(s, sep, |s|);
      assert s[..|s|] == s;
      [s]
    else
      var rest := Split(s[i + |sep|..], sep);
      PrefixBeforeFirst(s, sep, i);
      assert s == s[..i] + sep + s[i + |sep|..] by {
        assert s[i..i + |sep|] == sep;
      }
      [s[..i]] + rest
  }

  /** `sep` cannot overlap itself: no proper suffix of it is also a prefix.
      For such a separator a piece free of `sep` is recovered exactly. */
  ghost predicate Borderless(sep: string) {
    forall k :: 0 < k < |sep| ==> sep[k..] != sep[..|sep| - k]
  }

  /** In `p + sep + t`, with `p` free of a borderless `sep`, the first
      occurrence of `sep` is the one right after `p`. */
  lemma FirstOccurrenceAfterPiece(p: string, sep: string, t: string)
    requires |sep| > 0 && Borderless(sep) && !Contains(p, sep)
    ensures IndexOf(p + sep + t, sep) == |p|
  {
    var s := p + sep + t;
    assert OccursAt(s, sep, |p|) by {
      assert s[|p|..|p| + |sep|] == sep;
    }
    forall j | 0 <= j < |p|
      ensures !OccursAt(s, sep, j)
    {
      if j + |sep| <= |p| {
        assert s[j..j + |sep|] == p[j..j + |sep|];
        assert !OccursAt(p, sep, j);
      } else {
        var k := |p| - j;
        assert s[j..j + |sep|][k..] == sep[..|sep| - k];
        assert sep[k..] != sep[..|sep| - k];
      }
    }
  }

  /** `split` undoes `join` when no piece contains the separator and the
      separator cannot overlap itself. */
  lemma {:induction false} SplitJoin(parts: seq<string>, sep: string)
    requires |sep| > 0 && Borderless(sep) && |parts| >= 1
    requires forall k :: 0 <= k < |parts| ==> !Contains(parts[k], sep)
    ensures Split(Join(parts, sep), sep) == parts
    decreases |parts|
  {
    if |parts| > 1 {
      var p, t := parts[0], Join(parts[1..], sep);
      FirstOccurrenceAfterPiece(p, sep, t);
      var s := p + sep + t;
      assert s[..|p|] == p;
      assert s[|p| + |sep|..] == t;
      SplitJoin(parts[1..], sep);
      assert [p] + parts[1..] == parts;
    }
  }

  lemma CommaSpaceBorderless()
    ensures Borderless(", ")
  {
    assert ", "[1..] == " " && ", "[..1] == ",";
  }

  /** No CR immediately followed by LF. */
  ghost predicate NoCrlf(s: string) {
    forall i, j :: 0 <= i && j == i + 1 && j < |s| ==> !(s[i] == '\r' && s[j] == '\n')
  }

  /** `s.replace('\r\n', ' ')`: every CRLF, scanning left to right without
      overlap, becomes one space. */
  function ReplaceCrlf(s: string): (r: string)
    ensures |r| <= |s|
    ensures |s| > 0 ==> |r| > 0 && r[0] == (if |s| >= 2 && s[0] == '\r' && s[1] == '\n' then ' ' else s[0])
    ensures NoCrlf(r)
    ensures NoCrlf(s) ==> r == s
    decreases |s|
  {
    if |s| < 2 then s
    else if s[0] == '\r' && s[1] == '\n' then " " + ReplaceCrlf(s[2..])
    else [s[0]] + ReplaceCrlf(s[1..])
  }

  /** A prefix free of CRLF, whose last character does not begin one with
      what follows, is copied as it is. */
  lemma {:induction false} ReplaceCrlfCopiesPrefix(p: string, t: string)
    requires !Contains(p, "\r\n")
    requires |p| == 0 || |t| == 0 || p[|p| - 1] != '\r' || t[0] != '\n'
    ensures ReplaceCrlf(p + t) == p + ReplaceCrlf(t)
    decreases |p|
  {
    if |p| > 0 {
      var s, rest := p + t, p[1..];
      if |s| >= 2 {
        NoCrlfAtStart(p, t);
        assert s[1..] == rest + t;
        assert ReplaceCrlf(s) == [s[0]] + ReplaceCrlf(rest + t);
        NotContainedInTail(p, "\r\n");
        ReplaceCrlfCopiesPrefix(rest, t);
        assert p == [p[0]] + rest;
      } else {
        assert t == [] && s == p;
      }
    } else {
      assert p + t == t;
    }
  }

  /** Under the same conditions the text does not start with a CRLF. */
  lemma NoCrlfAtStart(p: string, t: string)
    requires |p| > 0 && !Contains(p, "\r\n")
    requires |t| == 0 || p[|p| - 1] != '\r' || t[0] != '\n'
    ensures var s := p + t; !(|s| >= 2 && s[0] == '\r' && s[1] == '\n')
  {
    if |p| >= 2 {
      assert !OccursAt(p, "\r\n", 0);
      assert p[..2] == [p[0], p[1]];
    }
  }

  /** A text without `pat` has no `pat` after its first character either. */
  lemma NotContainedInTail(s: string, pat: string)
    requires |s| > 0 && !Contains(s, pat)
    ensures !Contains(s[1..], pat)
  {
    forall j | 0 <= j
      ensures !OccursAt(s[1..], pat, j)
    {
      OccursAtTail(s, pat, j + 1);
    }
  }

  /** `replace` is `join` after `split`: the text between the CRLFs is kept
      as it is, and each CRLF becomes one space. */
  lemma {:induction false} ReplaceCrlfIsSplitJoin(s: string)
    ensures ReplaceCrlf(s) == Join(Split(s, "\r\n"), " ")
    decreases |s|
  {
    var i := IndexOf(s, "\r\n");
    if i < 0 {
      ReplaceCrlfCopiesPrefix(s, "");
      assert s + "" == s;
    } else {
      var head, rest := s[..i], s[i + 2..];
      PrefixBeforeFirst(s, "\r\n", i);
      assert s == head + "\r\n" + rest by {
        assert s[i..i + 2] == "\r\n";
      }
      ReplaceCrlfAtFirst(head, rest);
      assert Split(s, "\r\n") == [head] + Split(rest, "\r\n");
      ReplaceCrlfIsSplitJoin(rest);
      JoinCons(head, Split(rest, "\r\n"), " ");
    }
  }

  /** At a CRLF with none before it, `replace` copies what precedes it,
      writes one space, and goes on after it. */
  lemma ReplaceCrlfAtFirst(head: string, rest: string)
    requires !Contains(head, "\r\n")
    ensures ReplaceCrlf(head + "\r\n" + rest) == head + " " + ReplaceCrlf(rest)
  {
    assert head + "\r\n" + rest == head + ("\r\n" + rest);
    ReplaceCrlfCopiesPrefix(head, "\r\n" + rest);
    ReplaceCrlfOpening(rest);
  }

  /** A leading CRLF becomes one space. */
  lemma ReplaceCrlfOpening(rest: string)
    ensures ReplaceCrlf("\r\n" + rest) == " " + ReplaceCrlf(rest)
  {
    var t := "\r\n" + rest;
    assert t[0] == '\r' && t[1] == '\n' && t[2..] == rest;
  }

  /** Joining one more piece in front. */
  lemma JoinCons(p: string, pieces: seq<string>, sep: string)
    requires |pieces| >= 1
    ensures Join([p] + pieces, sep) == p + sep + Join(pieces, sep)
  {
    assert ([p] + pieces)[1..] == pieces;
  }

  /** `s.lstrip(c)`. */
  function StripLeft(s: string, c: char): string {
    if |s| > 0 && s[0] == c then StripLeft(s[1..], c) else s
  }

  /** `lstrip` removes a run of `c` in front, and only that. */
  lemma {:induction false} StripLeftRemovesRun(s: string, c: char)
    ensures var r := StripLeft(s, c);
      && |r| <= |s| && r == s[|s| - |r|..]
      && (forall i :: 0 <= i < |s| - |r| ==> s[i] == c)
      && (|r| > 0 ==> r[0] != c)
  {
    if |s| > 0 && s[0] == c {
      StripLeftRemovesRun(s[1..], c);
      var r := StripLeft(s, c);
      assert s[1..][|s| - 1 - |r|..] == s[|s| - |r|..];
    }
  }

  /** `s.rstrip(c)`. */
  function StripRight(s: string, c: char): string {
    if |s| > 0 && s[|s| - 1] == c then StripRight(s[..|s| - 1], c) else s
  }

  /** `rstrip` removes a run of `c` at the end, and only that. */
  lemma {:induction false} StripRightRemovesRun(s: string, c: char)
    ensures var r := StripRight(s, c);
      && |r| <= |s| && r == s[..|r|]
      && (forall i :: |r| <= i < |s| ==> s[i] == c)
      && (|r| > 0 ==> r[|r| - 1] != c)
  {
    if |s| > 0 && s[|s| - 1] == c {
      StripRightRemovesRun(s[..|s| - 1], c);
      var r := StripRight(s, c);
      assert s[..|s| - 1][..|r|] == s[..|r|];
    }
  }

  /** `r` is `s` with `lo` copies of `c` removed in front and the rest of
      what follows `r` being `c` too. */
  ghost predicate StrippedAt(s: string, r: string, c: char, lo: int) {
    && 0 <= lo && lo + |r| <= |s| && r == s[lo..lo + |r|]
    && (forall i :: 0 <= i < lo ==> s[i] == c)
    && (forall i :: lo + |r| <= i < |s| ==> s[i] == c)
  }

  /** `s.strip(c)`. */
  function Strip(s: string, c: char): string {
    StripRight(StripLeft(s, c), c)
  }

  /** `strip` keeps the longest middle part of `s` that neither starts nor
      ends with `c`, everything around it being `c`. */
  lemma StripKeepsMiddle(s: string, c: char)
    ensures exists lo :: StrippedAt(s, Strip(s, c), c, lo)
    ensures var r := Strip(s, c); |r| > 0 ==> r[0] != c && r[|r| - 1] != c
  {
    var left := StripLeft(s, c);
    StripLeftRemovesRun(s, c);
    var r := StripRight(left, c);
    StripRightRemovesRun(left, c);
    var lo := |s| - |left|;
    assert left == s[lo..] && r == left[..|r|];
    assert r == s[lo..lo + |r|];
    forall i | lo + |r| <= i < |s|
      ensures s[i] == c
    {
      assert left[i - lo] == c;
    }
    assert r == Strip(s, c);
    assert StrippedAt(s, Strip(s, c), c, lo);
  }

  /** Stripping `c` from `c + v + c` gives back `v` when `v` itself neither
      starts nor ends with `c`. */
  lemma StripSurrounded(v: string, c: char)
    requires |v| == 0 || (v[0] != c && v[|v| - 1] != c)
    ensures Strip([c] + v + [c], c) == v
  {
    var s := [c] + v + [c];
    assert s[1..] == v + [c];
    if |v| > 0 {
      assert StripLeft(v + [c], c) == v + [c];
      assert (v + [c])[..|v|] == v;
      assert StripRight(v, c) == v;
    } else {
      assert s == [c, c] && s[1..] == [c] && s[1..][1..] == [];
      assert StripLeft(s, c) == StripLeft([c], c) == StripLeft([], c);
    }
  }

  /** Stripping `c` from `c + v` gives back `v` when `v` itself neither
      starts nor ends with `c`. */
  lemma StripLeading(v: string, c: char)
    requires |v| == 0 || (v[0] != c && v[|v| - 1] != c)
    ensures Strip([c] + v, c) == v
  {
    var s := [c] + v;
    assert s[1..] == v;
    assert StripLeft(s, c) == v;
  }

  function DigitChar(d: nat): (c: char)
    requires d < 10
    ensures '0' <= c <= '9'
  {
    "0123456789"[d]
  }

  predicate IsDigits(s: string) {
    forall i :: 0 <= i < |s| ==> '0' <= s[i] <= '9'
  }

  /** `str(n)` for a non-negative integer: its decimal digits, without
      leading zeros. */
  function DecimalString(n: nat): (r: string)
    ensures |r| >= 1 && IsDigits(r)
    ensures r[0] == '0' <==> n == 0
    ensures n == 0 ==> r == "0"
  {
    if n < 10 then [DigitChar(n)] else DecimalString(n / 10) + [DigitChar(n % 10)]
  }

  /** The number a string of decimal digits denotes (`int(s)`). */
  function DecimalValue(s: string): nat
    requires IsDigits(s)
  {
    if |s| == 0 then 0
    else DecimalValue(s[..|s| - 1]) * 10 + (s[|s| - 1] as int - '0' as int)
  }

  /** `int(str(n)) == n`: the Content-Length header text denotes the count. */
  lemma {:induction false} DecimalRoundTrip(n: nat)
    ensures DecimalValue(DecimalString(n)) == n
  {
    if n >= 10 {
      var r := DecimalString(n);
      assert r[..|r| - 1] == DecimalString(n / 10);
      DecimalRoundTrip(n / 10);
    }
  }
}

=== FILE: results.dfy ===
/** Failure-carrying datatypes shared by the AirPlay model: `Option` stands
    for a Python value that may be `None`, `Result` for a call that either
    returns a value or raises. */
module Results {

  datatype Option<+T> = None | Some(value: T) {

    /** The value, or `default` when there is none. */
    function GetOr(default: T): T {
      match this
      case Some(v) => v
      case None => default
    }
  }

  datatype Result<+T, +E> = Ok(value: T) | Err(error: E)
}
